=== FILE: README.md ===
# AudioRecorder capture core, in Dafny

This project models the sequential core of `AudioRecorder`, the microphone
capture component of the walkie-talkie application (one Java class,
`src/org/jsl/wfwt/AudioRecorder.java`). It covers four things.

- **The control state machine.** The states are IDLE, START, RUN, STOP and
  SHTDN. `startRecording`, `stopRecording` and `shutdown` each make one atomic
  assignment under the recorder's lock. Each is modelled as a total function
  that returns the next state and whether the waiting thread is signalled
  (`recorder_state.dfy`).
- **One iteration of the capture thread's loop in `run()`, as a step
  function.** It works over an immutable record:
  - the shared state;
  - the current buffer's cursor (position, limit, capacity);
  - the replay queue;
  - the trace of observable effects: device start, stop, release and read;
    `send`; player `write`; view release; buffer acquire and release.

  The number of bytes the device read returns is a parameter. A step parks
  (state IDLE), continues, or leaves the loop after the teardown
  (`capture_loop.dfy`). The trace is summarised by kind with `Of` and `Count`
  (`effects.dfy`).
- **The buffer packing arithmetic.** This covers the refill check, the read
  placed past the message header, and the message and data slices
  (`frame_layout.dfy`). A loop invariant ties the trace, the queue and the
  cursor together across iterations (`loop_invariant.dfy`). A second one
  follows the cache buffers: the thread holds one buffer at a time, and it
  releases each buffer exactly once, the last in the teardown
  (`buffer_protocol.dfy`).
- **Any interleaving of control calls and loop iterations.** Every control
  call is atomic under the one lock, and the loop touches the state only under
  that lock. So a concurrent execution is a sequence of actions
  (`interleaving.dfy`).

It also models the factory `create`: it picks the first supported sample
rate, derives the "PCM:" format identifier, sets the device buffer to ten
times the minimum, and computes `frameSize` with the `& (Integer.MAX_VALUE - 1)`
mask (`device_selection.dfy`).

`Protocol.AudioFrame` is not part of this model. Its data offset and message
size are an abstract record (`FrameLayout.AudioFrame`). The model makes one
assumption about them, the one the debug check at line 151 relies on: a
message of n data bytes has room for its header and those n bytes
(`FrameLayout.WellFormed`, `Config.Valid`). `AudioRecord.getMinBufferSize` is
a parameter: an oracle from rate to Java int.

## Behaviour of the code as written

The model follows the code, including four behaviours a reader might not
expect.

- **START is never turned into RUN.** Every iteration that finds START issues
  the device `startRecording()` again (`CaptureLoop.CaptureStepDevice`,
  `Interleaving.StartReissued`).
- **`stopRecording` overwrites SHTDN with STOP.** `stopRecording` replaces
  every state but IDLE with STOP, SHTDN included (lines 221-222). If a stop
  comes between `shutdown` and the thread's next iteration, the thread drains
  the STOP and returns to IDLE. As long as no further control call arrives,
  it waits there and does not release the device. The `join` in `shutdown`
  then does not return (`Interleaving.StopAfterShutdownParks`). A later
  `startRecording` wakes the thread again, and a later `shutdown` lets it
  leave its loop.
- **Each cache buffer carries at most one message.** The cache is sized for
  eight messages per buffer, but after a message is carved the buffer's limit
  equals its position. So the next refill check always releases it and takes a
  new one. Every message therefore sits at offset 0 of a buffer of its own
  (`FrameLayout.CarvedBufferIsReplaced`, `LoopInvariant.Inv`). A buffer can
  also be released with no message in it: the first one on a shutdown before
  any capture, or a fresh one after a short read.
- **Frames queued for replay are not drained on exit.** They are replayed only
  on a STOP, so on a SHTDN or a short read the queued views are never written
  or released (`CaptureLoop.ExitStep` keeps the queue unchanged).

## Model

| member | source | states |
|---|---|---|
| RecorderState.StartRecording | src/org/jsl/wfwt/AudioRecorder.java:201-207 | IDLE becomes START with a signal; STOP becomes RUN without one; START, RUN and SHTDN are unchanged and not signalled. |
| RecorderState.StopRecording | src/org/jsl/wfwt/AudioRecorder.java:221-222 | It never signals. The result is IDLE exactly when the input is IDLE. Every other state, SHTDN included, becomes STOP. |
| RecorderState.Shutdown | src/org/jsl/wfwt/AudioRecorder.java:236-238 | The state becomes SHTDN from anywhere, and the signal is issued exactly when the prior state was IDLE. |
| RecorderState.NoLostWakeup | src/org/jsl/wfwt/AudioRecorder.java:201-238 | Any control call that moves the state off IDLE signals the waiting thread, and no call signals from any other state. |
| RecorderState.ShutdownIdempotent | src/org/jsl/wfwt/AudioRecorder.java:236-238 | A second shutdown leaves SHTDN unchanged and does not signal. |
| RecorderState.ShutdownVersusLaterCalls | src/org/jsl/wfwt/AudioRecorder.java:201-222 | startRecording after shutdown keeps SHTDN, while stopRecording after shutdown turns it into STOP. |
| RecorderState.StopThenStartCoalesces | src/org/jsl/wfwt/AudioRecorder.java:201-222 | While recording, a stop immediately followed by a start ends in RUN without passing through IDLE. |
| RecorderState.ShutdownPersistsWithoutStop | src/org/jsl/wfwt/AudioRecorder.java:201-238 | From SHTDN, any sequence of control calls that contains no stopRecording stays in SHTDN. |
| RecorderState.ControlNeverReturnsToIdle | src/org/jsl/wfwt/AudioRecorder.java:201-238 | No sequence of control calls reaches IDLE from a non-IDLE state. Only the capture thread's STOP drain returns to IDLE. |
| FrameLayout.WellFormedConfig | src/org/jsl/wfwt/AudioRecorder.java:150-152 | Under the layout assumption, every positive frame size gives a configuration in which a message holds its header and its frame. |
| FrameLayout.FreshBuffer | src/org/jsl/wfwt/AudioRecorder.java:80-81 | A buffer from the cache is untouched, with capacity eight messages. |
| FrameLayout.EnsureRoom | src/org/jsl/wfwt/AudioRecorder.java:139-148 | After the refill check, a whole message fits between position and limit. The buffer is kept exactly when it already had room; otherwise the result is the next acquisition, untouched, at position 0 with cache capacity. |
| FrameLayout.RoomAtStart | src/org/jsl/wfwt/AudioRecorder.java:139-148 | A buffer that is untouched or used up comes out of the refill check untouched. It is the same buffer only if it was untouched, and otherwise the next one. |
| FrameLayout.ReadTarget | src/org/jsl/wfwt/AudioRecorder.java:150-154 | The read lands dataOffs past the message start and is frameSize long. It lies inside the message, and the debug check (remaining >= frameSize) holds. |
| FrameLayout.CarveMessage | src/org/jsl/wfwt/AudioRecorder.java:155-173 | The message spans exactly messageSize bytes from the position and stays within the limit and capacity. Its data part starts dataOffs in, contains the read, and is at least frameSize long. The buffer's cursor ends at the message end with nothing remaining. |
| FrameLayout.CarvedBufferIsReplaced | src/org/jsl/wfwt/AudioRecorder.java:139-173 | After a message is carved, the next refill check always replaces the buffer with acquisition id + 1, so no buffer carries a second message. |
| FrameLayout.CarveDataIsDataPart | src/org/jsl/wfwt/AudioRecorder.java:163-169 | The slice queued for replay is the message's data part: same buffer, same end, start moved by dataOffs. |
| Effects.OfAppend | src/org/jsl/wfwt/AudioRecorder.java:100-190 | The views of one kind in a concatenated trace are those of the first part followed by those of the second. |
| Effects.CountAppend | src/org/jsl/wfwt/AudioRecorder.java:100-190 | Occurrence counts add up over concatenated traces. |
| Effects.QuietPrefix | src/org/jsl/wfwt/AudioRecorder.java:139-148 | A prefix of effects that carry no view of a kind and do not include a given effect changes neither the views of that kind nor the count of that effect. |
| Effects.HandoverCounts | src/org/jsl/wfwt/AudioRecorder.java:97-148 | In the handover of buffers 0..n, each buffer is acquired exactly once. Each of 0..n-1 is released exactly once, and n is not released. |
| Effects.CountBuffers | src/org/jsl/wfwt/AudioRecorder.java:97-190 | Projecting a trace on its buffer events keeps the count of every acquisition and release. |
| Effects.ReplayBuffers | src/org/jsl/wfwt/AudioRecorder.java:117-127 | The drain acquires and releases no buffer. |
| Effects.Replay | src/org/jsl/wfwt/AudioRecorder.java:117-127 | The drain of a queue of n frames has exactly 2n effects. |
| Effects.ReplayPayloads | src/org/jsl/wfwt/AudioRecorder.java:117-127 | The drain writes exactly the queued frames and releases exactly those, in queue order. It sends nothing and reads nothing. |
| Effects.ReplayOrder | src/org/jsl/wfwt/AudioRecorder.java:120-125 | Frame i of the queue is written at position 2i of the drain and released right after it, at 2i+1. |
| Effects.ReplayCounts | src/org/jsl/wfwt/AudioRecorder.java:117-127 | The drain never touches the device or the buffers. |
| CaptureLoop.Initial | src/org/jsl/wfwt/AudioRecorder.java:84-97 | The thread enters its loop in IDLE with an empty queue and an untouched first buffer of cache capacity. Its trace is exactly the first step of the buffer handover, the acquisition of buffer 0: no device effect, send or write happens before the loop. |
| CaptureLoop.Step | src/org/jsl/wfwt/AudioRecorder.java:100-190 | A step is enabled exactly when the state is not IDLE. It leaves the loop exactly on SHTDN or on a read other than frameSize in START/RUN. The trace only grows and the cursor stays sound. STOP becomes IDLE and every other state is kept. Leaving always ends with device stop, device release and release of the buffer held. |
| CaptureLoop.Swap | src/org/jsl/wfwt/AudioRecorder.java:139-148 | The refill check touches only the buffer cache. It releases the buffer held exactly once when the buffer is replaced, and not at all otherwise. It takes acquisition id + 1 exactly when it replaces, and never releases the buffer held afterwards. Appended to the handover up to the old buffer, it gives the handover up to the new one. |
| CaptureLoop.StopStep | src/org/jsl/wfwt/AudioRecorder.java:112-129 | A STOP iteration issues exactly one device stop and no device start or release, and the state becomes IDLE. With replay on, the device stop comes first, then for each queued frame in order a write to the player immediately followed by its release, and the queue is emptied. With replay off, the device stop is its only effect: nothing is written or released and the queue is kept. No read and no send happen. No buffer is acquired or released. |
| CaptureLoop.CaptureStep | src/org/jsl/wfwt/AudioRecorder.java:139-173 | A full read keeps the state, so START stays START. With replay on, the queue grows by exactly the data part of the message sent. The cursor advances by exactly messageSize from where the refill check left it, and nothing remains in the buffer. |
| CaptureLoop.CaptureStepEffects | src/org/jsl/wfwt/AudioRecorder.java:155-173 | A full read sends exactly one message, spanning [position, position + messageSize) of the buffer after the refill check. That message is released once, and nothing is written to the player. |
| CaptureLoop.CaptureStepOrder | src/org/jsl/wfwt/AudioRecorder.java:108-173 | A full-read iteration ends with the read, then the send of the message, then its release, in that order. Every device start and every buffer acquisition or release of the iteration comes before the read. |
| CaptureLoop.CaptureStepRead | src/org/jsl/wfwt/AudioRecorder.java:150-154 | A full-read iteration issues exactly one read, of frameSize bytes at dataOffs past the start of the message it then sends. |
| CaptureLoop.CaptureStepDevice | src/org/jsl/wfwt/AudioRecorder.java:108-111 | A full-read iteration issues the device start exactly when the state is START, and neither stops nor releases the device. |
| CaptureLoop.ExitStep | src/org/jsl/wfwt/AudioRecorder.java:105-190 | Leaving the loop (on SHTDN or a short read) stops the device once and releases it once. It also releases the buffer held once, sends nothing, writes nothing, releases no view, and leaves the queue and the state as they were. On SHTDN the three teardown effects are all that happens. On a short read the device is started exactly when the state is START, and exactly one read lands where the refill check left the buffer. |
| CaptureLoop.ExitFacts | src/org/jsl/wfwt/AudioRecorder.java:108-190 | For any iteration laid out as an optional device start, a refill swap, an optional read and the teardown: no send, write or view release; the reads are exactly the one read; one device stop, one device release, one release of the buffer held; as many device starts as the layout has. |
| CaptureLoop.TeardownEffects | src/org/jsl/wfwt/AudioRecorder.java:188-190 | The teardown holds one device stop, one device release and one release of the buffer, nothing else, and carries no view of any kind. |
| BufferProtocol.InitialHolding | src/org/jsl/wfwt/AudioRecorder.java:97 | When the thread enters its loop, its only buffer event is the acquisition of the buffer it holds. |
| BufferProtocol.StepKeepsHandover | src/org/jsl/wfwt/AudioRecorder.java:139-190 | The buffer events stay the handover up to the buffer held after every iteration that continues: acquire 0, then release k before acquire k + 1. When the thread leaves its loop they are that handover followed by the release of the buffer held. |
| BufferProtocol.TeardownBuffers | src/org/jsl/wfwt/AudioRecorder.java:188-190 | The only buffer event of the teardown is the release of the buffer held. |
| LoopInvariant.InitialInv | src/org/jsl/wfwt/AudioRecorder.java:84-97 | The invariant holds when the thread enters its loop. |
| LoopInvariant.StepPreservesInv | src/org/jsl/wfwt/AudioRecorder.java:100-179 | Every iteration that continues keeps the full invariant, and leaving the loop keeps its trace part. The invariant says: the cursor is sound, every message sent is the first messageSize bytes of its own newer buffer, and with replay on the frames written plus those queued are the data parts of all messages sent, in order. |
| LoopInvariant.MessageInBounds | src/org/jsl/wfwt/AudioRecorder.java:157-173 | Under the invariant, every message sent is messageSize long and ends within the cache's buffer size. |
| LoopInvariant.MessagesDisjoint | src/org/jsl/wfwt/AudioRecorder.java:139-173 | Under the invariant, two messages sent never overlap: they lie in different buffers or in disjoint ranges. |
| LoopInvariant.Conservation | src/org/jsl/wfwt/AudioRecorder.java:163-170 | Queuing the data part of a newly sent message keeps "written plus queued equals the data parts of everything sent". |
| LoopInvariant.NextMessage | src/org/jsl/wfwt/AudioRecorder.java:139-173 | A message carved at offset 0 of a newer buffer keeps the one-message-per-buffer order. |
| Interleaving.Perform | src/org/jsl/wfwt/AudioRecorder.java:93-243 | A control call changes only the state, even after the thread has left its loop. Once the thread has left, no action brings it back or adds to its trace. |
| Interleaving.RunPreservesInv | src/org/jsl/wfwt/AudioRecorder.java:93-243 | Under every interleaving of control calls and loop iterations, the whole-recorder invariant holds. |
| Interleaving.Reachable | src/org/jsl/wfwt/AudioRecorder.java:58-243 | From construction, under any interleaving, messages sit one per buffer. With replay on, every sent frame's data part is either written to the player or still queued, in capture order. |
| Interleaving.BuffersBalanced | src/org/jsl/wfwt/AudioRecorder.java:93-243 | From construction, under any interleaving, every buffer up to the one held is acquired exactly once, and no later one is. While the thread runs, each earlier buffer is released exactly once and the held one is not. Once it has left its loop, the held one is released exactly once too. No buffer is released twice or without being acquired. |
| Interleaving.ExitIsFinal | src/org/jsl/wfwt/AudioRecorder.java:131-190 | After the thread has left its loop, nothing more is added to its trace, so no further message is sent. |
| Interleaving.ExitEndsWithTeardown | src/org/jsl/wfwt/AudioRecorder.java:175-190 | Whenever a run makes the thread leave its loop, the final trace ends with device stop, device release and release of the buffer it held. |
| Interleaving.ShutdownWins | src/org/jsl/wfwt/AudioRecorder.java:131-132 | From SHTDN, with no stopRecording before the thread's next iteration, that iteration leaves the loop, and nothing more is sent whatever actions follow. |
| Interleaving.IdleWaits | src/org/jsl/wfwt/AudioRecorder.java:105-106 | While the state is IDLE, loop iterations change nothing: the thread waits. |
| Interleaving.StopAfterShutdownParks | src/org/jsl/wfwt/AudioRecorder.java:221-238 | shutdown, then stopRecording, then one iteration leaves the thread alive in IDLE. From there no number of iterations changes anything, so as long as no further control call arrives the thread never reaches its teardown. |
| Interleaving.StartReissued | src/org/jsl/wfwt/AudioRecorder.java:108-111 | After startRecording, two full-read iterations issue the device start twice and the state is still START. |
| DeviceSelection.Wrap32 | src/org/jsl/wfwt/AudioRecorder.java:277 | Java int multiplication wraps: the result agrees with the exact product modulo 2^32 and equals it when it fits. |
| DeviceSelection.ClearLowestBit | src/org/jsl/wfwt/AudioRecorder.java:284 | For a non-negative int, masking with Integer.MAX_VALUE - 1 clears exactly the lowest bit. |
| DeviceSelection.FrameSize | src/org/jsl/wfwt/AudioRecorder.java:284 | The frame size is the rate with its lowest bit cleared. It is even, at most the rate, and at most one below it. |
| DeviceSelection.CandidateFrameSizes | src/org/jsl/wfwt/AudioRecorder.java:262-284 | The frame sizes of the four candidate rates are 11024, 16000, 22050 and 44100. |
| DeviceSelection.Decimal | src/org/jsl/wfwt/AudioRecorder.java:279 | The decimal text of a rate is all digits and has no leading zero. It has one digit exactly for numbers below ten. |
| DeviceSelection.DecimalRoundTrip | src/org/jsl/wfwt/AudioRecorder.java:279 | Parsing the decimal text of a number gives that number back. |
| DeviceSelection.FormatRoundTrip | src/org/jsl/wfwt/AudioRecorder.java:279 | The rate can be read back from the format identifier "PCM:" + rate. |
| DeviceSelection.FormatInjective | src/org/jsl/wfwt/AudioRecorder.java:279 | Two rates give the same format identifier exactly when they are equal. |
| DeviceSelection.Configure | src/org/jsl/wfwt/AudioRecorder.java:272-285 | The recorder for a supported rate has that rate, a format naming it, and an even, positive frame size at most one below the rate. Its device buffer size is ten times the minimum modulo 2^32, in the int range, so it is the Java int product. It is exactly ten times the minimum when that fits. |
| DeviceSelection.SelectRate | src/org/jsl/wfwt/AudioRecorder.java:262-271 | It finds the first rate from the given index on that is not reported as ERROR or ERROR_BAD_VALUE. It finds none exactly when every such rate is reported as an error. |
| DeviceSelection.Create | src/org/jsl/wfwt/AudioRecorder.java:260-289 | It returns null exactly when no candidate rate is supported. Otherwise the recorder is configured for the first supported rate of [11025, 16000, 22050, 44100]. |
| DeviceSelection.SecondRateChosen | src/org/jsl/wfwt/AudioRecorder.java:262-285 | With 11025 unsupported and 16000 supported, a recorder is created, with format "PCM:16000" and frame size 16000. |
| DeviceSelection.CreatedConfigValid | src/org/jsl/wfwt/AudioRecorder.java:284-285 | A created recorder's frame size, over a layout that fits every frame, gives a valid loop configuration. |

## Left out

- Threads, the `ReentrantLock`/`Condition` pair, `await`/`signal` and `join` are not modelled as such. Each control call is one atomic action, and the IDLE wait (lines 105-106) is a step that is not enabled. The signal is kept only as the `wake` flag of a transition.
- Android APIs are not modelled. `AudioRecord`, `MediaRecorder`, `AudioFormat`, `Process`, thread priority and `Log` appear as trace effects (device start, stop, release, read) or are dropped (logging). `getMinBufferSize` is an oracle parameter.
- The values -1 and -2 of `AudioRecord.ERROR` and `AudioRecord.ERROR_BAD_VALUE` are the Android platform's. They are not defined in the file.
- `RetainableByteBuffer`, `RetainableByteBufferCache` and `clear(s_logger)` belong to a library that is not part of this model. Buffers keep only their cursor, acquisitions are numbered, and releases are trace events with no reference counts. The model assumes a buffer from the cache has position 0 and limit equal to its capacity, and that `slice()` covers [position, limit) and leaves the parent's cursor unchanged, as in java.nio.
- `Protocol.AudioFrame`, `SessionManager.send` and `AudioPlayer` are not part of this model. The frame layout is an abstract record; send and write are trace events.
- `InterruptedException` handling (lines 182-186) is left out. An interrupt while waiting only leads to the same teardown.
- The rest of `shutdown` is left out: the `join`, `m_audioPlayer.stopAndWait()` and the cache `clear` (lines 245-257). They happen after the state change and belong to other components.
- An exception from the `AudioRecord` constructor in `create` is left out, as are the `BuildConfig.DEBUG` assertions as statements.
  - The one at lines 151-152 (`remaining() < frameSize`) never fires, as `FrameLayout.ReadTarget` proves from the layout assumption.
  - The one at lines 146-147 (a fresh buffer's position is not 0) never fires only because of the cache assumption below. The model takes fresh buffers at position 0 (`FrameLayout.FreshBuffer`) and does not prove it.
- The int values of the states (lines 51-56) are not modelled. The code only compares states for equality, and `State` is a datatype with one constructor per assigned state. ESTPD is declared but never assigned, so it has no constructor.
- `getAudioFormat` (lines 88-91) only returns a field.
- FrameLayout.ReadTarget: the read is taken to land at the buffer's current position. This assumes `AudioRecord.read(ByteBuffer, int)` writes at the position of the buffer that `getNioByteBuffer()` returns. That buffer belongs to a library that is not part of this model.
- DeviceSelection.FrameSize: requires `sampleRate * 2` to fit in an int. This holds for every candidate rate; the Java overflow of larger rates is not modelled.
- FrameLayout.Config: the cache buffer size `8 * messageSize` is unbounded here. A Java int overflow of that product is not modelled.

=== FILE: buffer_protocol.dfy ===
/**
  How the capture thread uses the buffer cache in AudioRecorder.run()
  (src/org/jsl/wfwt/AudioRecorder.java, lines 97, 139-148 and 188-190): it
  takes its first buffer before the loop, swaps it for the next one only in
  the refill check, releasing the old one first, and releases the one it holds
  in the teardown. So while the loop runs the buffer events of the trace are
  exactly the handover up to the buffer held, and after the teardown that
  buffer is released as well.
*/
module BufferProtocol {
  import opened RecorderState
  import opened FrameLayout
  import opened Effects
  import opened CaptureLoop

  /** The running loop holds acquisition buffer.id and has released every
      earlier one exactly once. */
  ghost predicate Holding(s: Loop)
  {
    Buffers(s.trace) == Handover(s.buffer.id)
  }

  /** After the teardown, every acquisition, the last one included, has been
      released exactly once. */
  ghost predicate Returned(s: Loop)
  {
    Buffers(s.trace) == Handover(s.buffer.id) + [ReleaseBuffer(s.buffer.id)]
  }

  lemma InitialHolding(c: Config)
    ensures Holding(Initial(c))
  {
    BuffersSingle(AcquireBuffer(0));
  }

  /** A trace piece with no buffer event adds nothing to the projection. */
  lemma {:induction false} QuietBuffers(t: seq<Effect>)
    requires forall i :: 0 <= i < |t| ==> !Bookkeeping(t[i])
    ensures Buffers(t) == []
    decreases |t|
  {
    if t != [] {
      QuietBuffers(t[..|t| - 1]);
    }
  }

  lemma TeardownBuffers(id: nat)
    ensures Buffers(Teardown(id)) == [ReleaseBuffer(id)]
  {
    assert Teardown(id) == [DeviceStop, DeviceRelease] + [ReleaseBuffer(id)];
    BuffersAppend([DeviceStop, DeviceRelease], [ReleaseBuffer(id)]);
    QuietBuffers([DeviceStop, DeviceRelease]);
    BuffersSingle(ReleaseBuffer(id));
  }

  /** The buffer events of an iteration that gets as far as the read are those
      of its refill check, followed by the teardown's release on a short read. */
  lemma PreludeBuffers(kick: seq<Effect>, swap: seq<Effect>, tail: seq<Effect>)
    requires forall i :: 0 <= i < |kick| ==> !Bookkeeping(kick[i])
    requires forall i :: 0 <= i < |tail| ==> !Bookkeeping(tail[i])
    ensures Buffers(kick + (swap + tail)) == Buffers(swap)
  {
    BuffersAppend(kick, swap + tail);
    BuffersAppend(swap, tail);
    QuietBuffers(kick);
    QuietBuffers(tail);
  }

  /** While the thread runs it holds one buffer, the last one acquired, and
      every earlier buffer has been released exactly once; when it leaves the
      loop, the buffer it holds is released too. */
  lemma StepKeepsHandover(c: Config, s: Loop, bytesReady: int)
    requires c.Valid() && s.buffer.Valid() && Holding(s)
    ensures var r := Step(c, s, bytesReady);
            && (r.Continue? ==> Holding(r.loop))
            && (r.Exit? ==> Returned(r.loop))
  {
    var r := Step(c, s, bytesReady);
    if s.state == STOP {
      StopStep(c, s, bytesReady);
      var d := NewEffects(s, r);
      assert r.loop.trace == s.trace + d;
      BuffersAppend(s.trace, d);
    } else if s.state == SHTDN {
      assert r.loop.trace == s.trace + Teardown(s.buffer.id);
      BuffersAppend(s.trace, Teardown(s.buffer.id));
      TeardownBuffers(s.buffer.id);
    } else if s.state in {START, RUN} {
      if bytesReady == c.frameSize {
        CaptureHandover(c, s, bytesReady);
      } else {
        ShortReadHandover(c, s, bytesReady);
      }
    }
  }

  lemma CaptureHandover(c: Config, s: Loop, bytesReady: int)
    requires c.Valid() && s.buffer.Valid() && Holding(s)
    requires s.state in {START, RUN} && bytesReady == c.frameSize
    ensures Step(c, s, bytesReady).Continue? && Holding(Step(c, s, bytesReady).loop)
  {
    var r := Step(c, s, bytesReady);
    var b := EnsureRoom(s.buffer, c);
    var m := View(b.id, b.position, b.position + c.MessageSize());
    var read := View(b.id, b.position + c.DataOffs(), b.position + c.DataOffs() + c.frameSize);
    var swap := Swap(s.buffer, c);
    var tail := [DeviceRead(read)] + [Send(m), ReleaseView(m)];
    CaptureDelta(c, s, bytesReady);
    CaptureStep(c, s, bytesReady);
    var d := NewEffects(s, r);
    assert d == Kick(s.state) + (swap + tail);
    assert r.loop.trace == s.trace + d;
    PreludeBuffers(Kick(s.state), swap, tail);
    BuffersAppend(s.trace, d);
    assert Buffers(r.loop.trace) == Handover(s.buffer.id) + Buffers(swap);
  }

  lemma ShortReadHandover(c: Config, s: Loop, bytesReady: int)
    requires c.Valid() && s.buffer.Valid() && Holding(s)
    requires s.state in {START, RUN} && bytesReady != c.frameSize
    ensures Step(c, s, bytesReady).Exit? && Returned(Step(c, s, bytesReady).loop)
  {
    var b := EnsureRoom(s.buffer, c);
    ShortReadDelta(c, s, bytesReady);
    ExitHandover(s.trace, Kick(s.state), Swap(s.buffer, c),
                 [DeviceRead(ReadTarget(b, c))] + [DeviceStop, DeviceRelease], s.buffer.id, b.id);
  }

  /** Holding buffer `from`, a refill check that hands over to buffer `id`,
      then the teardown's release of `id`: every buffer has been returned. */
  lemma ExitHandover(t: seq<Effect>, kick: seq<Effect>, swap: seq<Effect>, tail: seq<Effect>, from: nat, id: nat)
    requires Buffers(t) == Handover(from) && Handover(from) + Buffers(swap) == Handover(id)
    requires forall i :: 0 <= i < |kick| ==> !Bookkeeping(kick[i])
    requires forall i :: 0 <= i < |tail| ==> !Bookkeeping(tail[i])
    ensures Buffers(t + ((kick + (swap + tail)) + [ReleaseBuffer(id)])) == Handover(id) + [ReleaseBuffer(id)]
  {
    var d := (kick + (swap + tail)) + [ReleaseBuffer(id)];
    PreludeBuffers(kick, swap, tail);
    BuffersAppend(kick + (swap + tail), [ReleaseBuffer(id)]);
    BuffersSingle(ReleaseBuffer(id));
    BuffersAppend(t, d);
    assert Buffers(t + d) == Handover(from) + Buffers(swap) + [ReleaseBuffer(id)];
  }

  /** The effects of a short-read iteration, laid out one by one. */
  lemma ShortReadDelta(c: Config, s: Loop, bytesReady: int)
    requires c.Valid() && s.buffer.Valid()
    requires s.state in {START, RUN} && bytesReady != c.frameSize
    ensures Step(c, s, bytesReady).Exit?
    ensures var l := Step(c, s, bytesReady).loop;
            var b := EnsureRoom(s.buffer, c);
            var tail := [DeviceRead(ReadTarget(b, c))] + [DeviceStop, DeviceRelease];
            && l.buffer.id == b.id
            && l.trace == s.trace + ((Kick(s.state) + (Swap(s.buffer, c) + tail)) + [ReleaseBuffer(b.id)])
  {
    var r := Step(c, s, bytesReady);
    var b := EnsureRoom(s.buffer, c);
    var kick := Kick(s.state);
    var swap := Swap(s.buffer, c);
    var read := [DeviceRead(ReadTarget(b, c))];
    var d := kick + (swap + read) + Teardown(b.id);
    assert r.loop.buffer.id == b.id;
    assert r.loop.trace == s.trace + d;
    assert d == (kick + (swap + (read + [DeviceStop, DeviceRelease]))) + [ReleaseBuffer(b.id)];
  }
}

=== FILE: capture_loop.dfy ===
/**
  One iteration of the capture thread's loop in AudioRecorder.run()
  (src/org/jsl/wfwt/AudioRecorder.java, lines 93-193), as a step function over
  an immutable record: the shared state, the current buffer's cursor, the
  replay queue and the trace of effects so far. The number of bytes the device
  read returns is a parameter of the step.
*/
module CaptureLoop {
  import opened RecorderState
  import opened FrameLayout
  import opened Effects

  /** What the capture thread works on. `state` is the field shared with the
      control calls; the rest belongs to the thread. */
  datatype Loop = Loop(state: State, buffer: Buffer, queue: seq<View>, trace: seq<Effect>)

  /** One iteration either finds the state IDLE and waits (no step is enabled),
      continues the loop, or leaves it after the teardown. */
  datatype Outcome = Parked | Continue(loop: Loop) | Exit(loop: Loop)

  /** The thread as it enters the loop: the first buffer taken from the cache
      is its only effect so far. */
  function Initial(c: Config): (s: Loop)
    ensures s.state == IDLE && s.queue == [] && s.buffer.Untouched()
    ensures s.buffer.capacity == c.CacheBufferSize()
    ensures Of(s.trace, Sends) == [] && Of(s.trace, Writes) == []
    ensures s.trace == Handover(0)
  {
    var t := [AcquireBuffer(0)];
    OfCons(AcquireBuffer(0), [], Sends);
    OfCons(AcquireBuffer(0), [], Writes);
    assert t == [AcquireBuffer(0)] + [];
    Loop(IDLE, FreshBuffer(0, c), [], t)
  }

  /** After the loop: stop and release the device, release the current buffer. */
  function Teardown(id: nat): seq<Effect>
  {
    [DeviceStop, DeviceRelease, ReleaseBuffer(id)]
  }

  /** STOP: stop the device, go back to IDLE and, with replay on, play every
      queued frame, releasing each, then empty the queue. No read follows. */
  function Drain(c: Config, s: Loop): Loop
  {
    if c.repeat then
      Loop(IDLE, s.buffer, [], s.trace + ([DeviceStop] + Replay(s.queue)))
    else
      Loop(IDLE, s.buffer, s.queue, s.trace + ([DeviceStop] + []))
  }

  /** The device start issued on every iteration that finds the state START. */
  function Kick(st: State): seq<Effect>
  {
    if st == START then [DeviceStart] else []
  }

  /** The buffer swap of the refill check, if it happens: the buffer held is
      released exactly when it is replaced, and then the next acquisition is
      taken, so the handover discipline continues from the buffer held before
      the check to the one held after it. */
  function Swap(b: Buffer, c: Config): (w: seq<Effect>)
    requires b.Valid()
    ensures forall i :: 0 <= i < |w| ==> Bookkeeping(w[i]) && w[i] != ReleaseBuffer(EnsureRoom(b, c).id)
    ensures Count(w, ReleaseBuffer(b.id)) == (if NeedsRefill(b, c) then 1 else 0)
    ensures Count(w, AcquireBuffer(b.id + 1)) == (if NeedsRefill(b, c) then 1 else 0)
    ensures Handover(b.id) + Buffers(w) == Handover(EnsureRoom(b, c).id)
  {
    if NeedsRefill(b, c) then
      var rel := ReleaseBuffer(b.id);
      var acq := AcquireBuffer(b.id + 1);
      SwapPair(rel, acq);
      assert Handover(b.id + 1) == Handover(b.id) + [rel, acq];
      [rel, acq]
    else
      assert Handover(b.id) + [] == Handover(b.id);
      []
  }

  lemma SwapPair(rel: Effect, acq: Effect)
    requires rel.ReleaseBuffer? && acq.AcquireBuffer?
    ensures Buffers([rel, acq]) == [rel, acq]
    ensures Count([rel, acq], rel) == 1 && Count([rel, acq], acq) == 1
  {
    assert [rel, acq] == [rel] + [acq];
    BuffersAppend([rel], [acq]);
    BuffersSingle(rel);
    BuffersSingle(acq);
    CountSnoc([rel], acq, rel);
    CountSnoc([rel], acq, acq);
    assert [rel] == [] + [rel];
    CountSnoc([], rel, rel);
    CountSnoc([], rel, acq);
  }

  /** START or RUN: (re)start the device if the state is START, make room for
      one message, read a frame past the header, then either pack and send the
      message or, on a short read, leave the loop. */
  function Capture(c: Config, s: Loop, bytesReady: int): Outcome
    requires c.Valid() && s.buffer.Valid() && s.state in {START, RUN}
  {
    var b := EnsureRoom(s.buffer, c);
    var prelude := Kick(s.state) + (Swap(s.buffer, c) + [DeviceRead(ReadTarget(b, c))]);
    if bytesReady == c.frameSize then
      var cut := CarveMessage(b, c);
      var queue := if c.repeat then s.queue + [cut.data] else s.queue;
      Continue(Loop(s.state, cut.rest, queue, s.trace + prelude + [Send(cut.message), ReleaseView(cut.message)]))
    else
      var held := b.(position := b.position + c.DataOffs());
      Exit(Loop(s.state, held, s.queue, s.trace + prelude + Teardown(held.id)))
  }

  /** One iteration of the loop. */
  function Step(c: Config, s: Loop, bytesReady: int): (r: Outcome)
    requires c.Valid() && s.buffer.Valid()
    ensures r.Parked? <==> s.state == IDLE
    ensures r.Exit? <==> s.state == SHTDN || (s.state in {START, RUN} && bytesReady != c.frameSize)
    ensures !r.Parked? ==> s.trace <= r.loop.trace && r.loop.buffer.Valid()
    ensures !r.Parked? ==> r.loop.state == (if s.state == STOP then IDLE else s.state)
    ensures r.Exit? ==> (|r.loop.trace| >= 3 &&
                         r.loop.trace[|r.loop.trace| - 3..] == Teardown(r.loop.buffer.id))
  {
    match s.state
    case IDLE => Parked
    case STOP => Continue(Drain(c, s))
    case SHTDN => Exit(s.(trace := s.trace + Teardown(s.buffer.id)))
    case START => Capture(c, s, bytesReady)
    case RUN => Capture(c, s, bytesReady)
  }

  /** The effects one step added to the trace. */
  function NewEffects(s: Loop, r: Outcome): seq<Effect>
    requires !r.Parked? && s.trace <= r.loop.trace
  {
    r.loop.trace[|s.trace|..]
  }

  /** STOP: exactly one device stop and nothing else on the device, the state
      becomes IDLE; with replay on, every queued frame is written to the player
      in insertion order and released exactly once, and the queue is emptied;
      with replay off, the device stop is all that happens; no read and no
      send happen in that step. With replay on, the drain follows the device
      stop and alternates: each frame is written and then released before the
      next one. */
  lemma StopStep(c: Config, s: Loop, bytesReady: int)
    requires c.Valid() && s.buffer.Valid() && s.state == STOP
    ensures Step(c, s, bytesReady).Continue?
    ensures var r := Step(c, s, bytesReady);
            var d := NewEffects(s, r);
            && r.loop.state == IDLE
            && r.loop.buffer == s.buffer
            && d[0] == DeviceStop
            && Count(d, DeviceStop) == 1 && Count(d, DeviceStart) == 0 && Count(d, DeviceRelease) == 0
            && Of(d, Sends) == [] && Of(d, Reads) == []
            && (c.repeat ==> Of(d, Writes) == s.queue && Of(d, Releases) == s.queue && r.loop.queue == [])
            && (!c.repeat ==> |d| == 1 && Of(d, Writes) == [] && Of(d, Releases) == [] && r.loop.queue == s.queue)
    ensures var d := NewEffects(s, Step(c, s, bytesReady));
            && Buffers(d) == []
            && forall i: nat :: Count(d, ReleaseBuffer(i)) == 0 && Count(d, AcquireBuffer(i)) == 0
    ensures var d := NewEffects(s, Step(c, s, bytesReady));
            c.repeat ==>
              && |d| == 1 + 2 * |s.queue|
              && forall i :: 0 <= i < |s.queue| ==>
                   d[1 + 2 * i] == PlayerWrite(s.queue[i]) && d[2 + 2 * i] == ReleaseView(s.queue[i])
  {
    var r := Step(c, s, bytesReady);
    var tail := if c.repeat then Replay(s.queue) else [];
    var d := [DeviceStop] + tail;
    assert r.loop.trace == s.trace + d;
    assert NewEffects(s, r) == d;
    if c.repeat {
      ReplayPayloads(s.queue);
    }
    forall k: Kind
      ensures Of(d, k) == Of(tail, k)
    {
      OfCons(DeviceStop, tail, k);
    }
    forall e: Effect | e in {DeviceStop, DeviceStart, DeviceRelease}
      ensures Count(d, e) == (if e == DeviceStop then 1 else 0)
    {
      CountCons(DeviceStop, tail, e);
      if c.repeat {
        ReplayCounts(s.queue, e);
      }
    }
    if c.repeat {
      ReplayBuffers(s.queue);
    }
    DrainBuffers(d, tail);
    if c.repeat {
      DrainOrder(d, s.queue);
    }
  }

  /** After the device stop, the drain alternates: frame i is written, then
      released, before frame i + 1 is touched. */
  lemma DrainOrder(d: seq<Effect>, q: seq<View>)
    requires d == [DeviceStop] + Replay(q)
    ensures |d| == 1 + 2 * |q|
    ensures forall i :: 0 <= i < |q| ==> d[1 + 2 * i] == PlayerWrite(q[i]) && d[2 + 2 * i] == ReleaseView(q[i])
  {
    ReplayOrder(q);
    forall i | 0 <= i < |q|
      ensures d[1 + 2 * i] == PlayerWrite(q[i]) && d[2 + 2 * i] == ReleaseView(q[i])
    {
      assert d[1 + 2 * i] == Replay(q)[2 * i] && d[2 + 2 * i] == Replay(q)[2 * i + 1];
    }
  }

  /** A device stop followed by effects with no buffer event has none either. */
  lemma DrainBuffers(d: seq<Effect>, tail: seq<Effect>)
    requires Buffers(tail) == [] && d == [DeviceStop] + tail
    ensures Buffers(d) == []
    ensures forall i: nat :: Count(d, ReleaseBuffer(i)) == 0 && Count(d, AcquireBuffer(i)) == 0
  {
    BuffersAppend([DeviceStop], tail);
    BuffersSingle(DeviceStop);
    forall i: nat
      ensures Count(d, ReleaseBuffer(i)) == 0 && Count(d, AcquireBuffer(i)) == 0
    {
      CountBuffers(d, ReleaseBuffer(i));
      CountBuffers(d, AcquireBuffer(i));
    }
  }

  /** START or RUN with a full read: the state is unchanged (a START stays
      START: the loop never turns it into RUN); with replay on, the queue grows
      by exactly the data part of the message sent, otherwise it is untouched;
      the cursor advances by exactly one message from where the refill check
      left it. */
  lemma CaptureStep(c: Config, s: Loop, bytesReady: int)
    requires c.Valid() && s.buffer.Valid() && s.state in {START, RUN}
    requires bytesReady == c.frameSize
    ensures Step(c, s, bytesReady).Continue?
    ensures var r := Step(c, s, bytesReady);
            var b := EnsureRoom(s.buffer, c);
            var m := View(b.id, b.position, b.position + c.MessageSize());
            && r.loop.state == s.state
            && r.loop.queue == (if c.repeat then s.queue + [DataPart(c, m)] else s.queue)
            && r.loop.buffer.id == b.id && r.loop.buffer.capacity == b.capacity
            && r.loop.buffer.position == b.position + c.MessageSize()
            && r.loop.buffer.Valid() && r.loop.buffer.Remaining() == 0
  {
  }

  /** START or RUN with a full read: exactly one message is sent, spanning
      messageSize bytes from the position the buffer had after the refill
      check; the single read landed just past that message's header; the
      message is released once and nothing is written to the player. */
  lemma CaptureStepEffects(c: Config, s: Loop, bytesReady: int)
    requires c.Valid() && s.buffer.Valid() && s.state in {START, RUN}
    requires bytesReady == c.frameSize
    ensures Step(c, s, bytesReady).Continue?
    ensures var d := NewEffects(s, Step(c, s, bytesReady));
            var b := EnsureRoom(s.buffer, c);
            var m := View(b.id, b.position, b.position + c.MessageSize());
            && Of(d, Sends) == [m]
            && Of(d, Releases) == [m]
            && Of(d, Writes) == []
  {
    var b := EnsureRoom(s.buffer, c);
    var m := View(b.id, b.position, b.position + c.MessageSize());
    var read := View(b.id, b.position + c.DataOffs(), b.position + c.DataOffs() + c.frameSize);
    var d := NewEffects(s, Step(c, s, bytesReady));
    CaptureDelta(c, s, bytesReady);
    assert d == Kick(s.state) + (Swap(s.buffer, c) + ([DeviceRead(read)] + [Send(m), ReleaseView(m)]));
    CaptureSummary(Kick(s.state), Swap(s.buffer, c), read, m);
    assert Of(d, Sends) == [m] && Of(d, Releases) == [m] && Of(d, Writes) == [];
  }

  /** START or RUN with a full read: the iteration ends by reading the frame,
      then sending the message, then releasing it; the device start and the
      refill's buffer swap both come before the read. */
  lemma CaptureStepOrder(c: Config, s: Loop, bytesReady: int)
    requires c.Valid() && s.buffer.Valid() && s.state in {START, RUN}
    requires bytesReady == c.frameSize
    ensures Step(c, s, bytesReady).Continue?
    ensures var d := NewEffects(s, Step(c, s, bytesReady));
            var b := EnsureRoom(s.buffer, c);
            var m := View(b.id, b.position, b.position + c.MessageSize());
            var read := View(b.id, b.position + c.DataOffs(), b.position + c.DataOffs() + c.frameSize);
            && |d| >= 3
            && d[|d| - 3] == DeviceRead(read) && d[|d| - 2] == Send(m) && d[|d| - 1] == ReleaseView(m)
            && forall i :: 0 <= i < |d| && (d[i] == DeviceStart || Bookkeeping(d[i])) ==> i < |d| - 3
  {
    var b := EnsureRoom(s.buffer, c);
    CaptureDelta(c, s, bytesReady);
    CaptureOrder(NewEffects(s, Step(c, s, bytesReady)), Kick(s.state), Swap(s.buffer, c),
                 View(b.id, b.position + c.DataOffs(), b.position + c.DataOffs() + c.frameSize),
                 View(b.id, b.position, b.position + c.MessageSize()));
  }

  /** An iteration that ends with the packed frame reads, then sends, then
      releases the message, and every buffer event and device start of the
      iteration comes before the read. */
  lemma CaptureOrder(d: seq<Effect>, kick: seq<Effect>, swap: seq<Effect>, read: View, m: View)
    requires d == kick + (swap + ([DeviceRead(read)] + [Send(m), ReleaseView(m)]))
    ensures |d| >= 3
    ensures d[|d| - 3] == DeviceRead(read) && d[|d| - 2] == Send(m) && d[|d| - 1] == ReleaseView(m)
    ensures forall i :: 0 <= i < |d| && (d[i] == DeviceStart || Bookkeeping(d[i])) ==> i < |d| - 3
  {
    var frame := [DeviceRead(read), Send(m), ReleaseView(m)];
    assert d == (kick + swap) + frame;
  }


  /** START or RUN with a full read: the single read lands just past the
      header of the message then sent, and is exactly frameSize bytes long. */
  lemma CaptureStepRead(c: Config, s: Loop, bytesReady: int)
    requires c.Valid() && s.buffer.Valid() && s.state in {START, RUN}
    requires bytesReady == c.frameSize
    ensures Step(c, s, bytesReady).Continue?
    ensures var d := NewEffects(s, Step(c, s, bytesReady));
            var b := EnsureRoom(s.buffer, c);
            Of(d, Reads) == [View(b.id, b.position + c.DataOffs(), b.position + c.DataOffs() + c.frameSize)]
  {
    var b := EnsureRoom(s.buffer, c);
    CaptureDelta(c, s, bytesReady);
    DeltaRead(NewEffects(s, Step(c, s, bytesReady)), Kick(s.state), Swap(s.buffer, c),
              View(b.id, b.position + c.DataOffs(), b.position + c.DataOffs() + c.frameSize),
              View(b.id, b.position, b.position + c.MessageSize()));
  }

  lemma DeltaRead(d: seq<Effect>, kick: seq<Effect>, swap: seq<Effect>, read: View, m: View)
    requires kick == [] || kick == [DeviceStart]
    requires forall i :: 0 <= i < |swap| ==> Bookkeeping(swap[i])
    requires d == kick + (swap + ([DeviceRead(read)] + [Send(m), ReleaseView(m)]))
    ensures Of(d, Reads) == [read]
  {
    CaptureEffects(kick, swap, read, m, Reads, DeviceStop);
    assert Payload(DeviceRead(read), Reads) + Payload(Send(m), Reads) + Payload(ReleaseView(m), Reads) == [read];
  }

  /** START or RUN with a full read: the device start is issued exactly when
      the state is START, and the device is neither stopped nor released. */
  lemma CaptureStepDevice(c: Config, s: Loop, bytesReady: int)
    requires c.Valid() && s.buffer.Valid() && s.state in {START, RUN}
    requires bytesReady == c.frameSize
    ensures Step(c, s, bytesReady).Continue?
    ensures var d := NewEffects(s, Step(c, s, bytesReady));
            && Count(d, DeviceStart) == (if s.state == START then 1 else 0)
            && Count(d, DeviceStop) == 0 && Count(d, DeviceRelease) == 0
  {
    var b := EnsureRoom(s.buffer, c);
    var m := View(b.id, b.position, b.position + c.MessageSize());
    var read := View(b.id, b.position + c.DataOffs(), b.position + c.DataOffs() + c.frameSize);
    var d := NewEffects(s, Step(c, s, bytesReady));
    CaptureDelta(c, s, bytesReady);
    assert d == Kick(s.state) + (Swap(s.buffer, c) + ([DeviceRead(read)] + [Send(m), ReleaseView(m)]));
    CaptureCounts(Kick(s.state), Swap(s.buffer, c), read, m);
    assert Count(d, DeviceStart) == (if s.state == START then 1 else 0);
    assert Count(d, DeviceStop) == 0 && Count(d, DeviceRelease) == 0;
  }

  /** The effects of a full-read iteration, laid out one by one. */
  lemma CaptureDelta(c: Config, s: Loop, bytesReady: int)
    requires c.Valid() && s.buffer.Valid() && s.state in {START, RUN}
    requires bytesReady == c.frameSize
    ensures Step(c, s, bytesReady).Continue?
    ensures var b := EnsureRoom(s.buffer, c);
            var m := View(b.id, b.position, b.position + c.MessageSize());
            var read := View(b.id, b.position + c.DataOffs(), b.position + c.DataOffs() + c.frameSize);
            NewEffects(s, Step(c, s, bytesReady))
            == Kick(s.state) + (Swap(s.buffer, c) + ([DeviceRead(read)] + [Send(m), ReleaseView(m)]))
  {
    var r := Step(c, s, bytesReady);
    var b := EnsureRoom(s.buffer, c);
    var read := ReadTarget(b, c);
    var m := CarveMessage(b, c).message;
    var kick := Kick(s.state);
    var swap := Swap(s.buffer, c);
    var d := kick + (swap + [DeviceRead(read)]) + [Send(m), ReleaseView(m)];
    assert r.loop.trace == s.trace + d;
    assert d == kick + (swap + ([DeviceRead(read)] + [Send(m), ReleaseView(m)]));
  }

  lemma CaptureSummary(kick: seq<Effect>, swap: seq<Effect>, read: View, m: View)
    requires kick == [] || kick == [DeviceStart]
    requires forall i :: 0 <= i < |swap| ==> Bookkeeping(swap[i])
    ensures var d := kick + (swap + ([DeviceRead(read)] + [Send(m), ReleaseView(m)]));
            && Of(d, Sends) == [m]
            && Of(d, Releases) == [m]
            && Of(d, Writes) == []
            && Of(d, Reads) == [read]
  {
    var d := kick + (swap + ([DeviceRead(read)] + [Send(m), ReleaseView(m)]));
    CaptureEffects(kick, swap, read, m, Sends, DeviceStart);
    assert Of(d, Sends) == [] + [m] + [];
    CaptureEffects(kick, swap, read, m, Releases, DeviceStop);
    assert Of(d, Releases) == [] + [] + [m];
    CaptureEffects(kick, swap, read, m, Writes, DeviceRelease);
    assert Of(d, Writes) == [] + [] + [];
    CaptureEffects(kick, swap, read, m, Reads, DeviceRelease);
    assert Of(d, Reads) == [read] + [] + [];
  }

  lemma CaptureCounts(kick: seq<Effect>, swap: seq<Effect>, read: View, m: View)
    requires kick == [] || kick == [DeviceStart]
    requires forall i :: 0 <= i < |swap| ==> Bookkeeping(swap[i])
    ensures var d := kick + (swap + ([DeviceRead(read)] + [Send(m), ReleaseView(m)]));
            && Count(d, DeviceStart) == (if kick != [] then 1 else 0)
            && Count(d, DeviceStop) == 0 && Count(d, DeviceRelease) == 0
  {
    CaptureEffects(kick, swap, read, m, Sends, DeviceStart);
    CaptureEffects(kick, swap, read, m, Sends, DeviceStop);
    CaptureEffects(kick, swap, read, m, Sends, DeviceRelease);
  }

  /** The effects of one packed frame: the read, the send, the release. */
  lemma PackedFrame(read: View, m: View, k: Kind, e: Effect)
    requires !e.DeviceRead? && !e.Send? && !e.ReleaseView?
    ensures Of([DeviceRead(read)] + [Send(m), ReleaseView(m)], k)
            == Payload(DeviceRead(read), k) + Payload(Send(m), k) + Payload(ReleaseView(m), k)
    ensures Count([DeviceRead(read)] + [Send(m), ReleaseView(m)], e) == 0
  {
    var tail := [Send(m), ReleaseView(m)];
    assert tail == [Send(m)] + ([ReleaseView(m)] + []);
    OfCons(DeviceRead(read), tail, k);
    OfCons(Send(m), [ReleaseView(m)] + [], k);
    OfCons(ReleaseView(m), [], k);
    CountCons(DeviceRead(read), tail, e);
    CountCons(Send(m), [ReleaseView(m)] + [], e);
    CountCons(ReleaseView(m), [], e);
  }

  lemma CaptureEffects(kick: seq<Effect>, swap: seq<Effect>, read: View, m: View, k: Kind, e: Effect)
    requires kick == [] || kick == [DeviceStart]
    requires forall i :: 0 <= i < |swap| ==> Bookkeeping(swap[i])
    requires e in {DeviceStart, DeviceStop, DeviceRelease}
    ensures var d := kick + (swap + ([DeviceRead(read)] + [Send(m), ReleaseView(m)]));
            && Of(d, k) == Payload(DeviceRead(read), k) + Payload(Send(m), k) + Payload(ReleaseView(m), k)
            && Count(d, e) == (if e == DeviceStart && kick != [] then 1 else 0)
  {
    var rest := swap + ([DeviceRead(read)] + [Send(m), ReleaseView(m)]);
    PackedFrame(read, m, k, e);
    QuietPrefix(swap, [DeviceRead(read)] + [Send(m), ReleaseView(m)], k, e);
    if kick != [] {
      OfCons(DeviceStart, rest, k);
      CountCons(DeviceStart, rest, e);
    } else {
      assert kick + rest == rest;
    }
  }

  /** Leaving the loop, on SHTDN or on a short read: the device is stopped
      once and released once, the buffer held at that point is released once,
      nothing is sent, nothing is written to the player and no view is
      released. On SHTDN the teardown is all that happens; on a short read the
      device is started first if the state is START, and the one read lands
      where the refill check left the buffer. The replay queue is left as it
      is: frames queued since the last STOP are not drained. */
  lemma ExitStep(c: Config, s: Loop, bytesReady: int)
    requires c.Valid() && s.buffer.Valid()
    requires s.state == SHTDN || (s.state in {START, RUN} && bytesReady != c.frameSize)
    ensures Step(c, s, bytesReady).Exit?
    ensures var r := Step(c, s, bytesReady);
            var d := NewEffects(s, r);
            && r.loop.state == s.state
            && r.loop.queue == s.queue
            && Of(d, Sends) == [] && Of(d, Writes) == []
            && Count(d, DeviceStop) == 1 && Count(d, DeviceRelease) == 1
            && Count(d, ReleaseBuffer(r.loop.buffer.id)) == 1
    ensures var d := NewEffects(s, Step(c, s, bytesReady));
            && Count(d, DeviceStart) == (if s.state == START then 1 else 0)
            && Of(d, Reads) == (if s.state == SHTDN then [] else [ReadTarget(EnsureRoom(s.buffer, c), c)])
            && Of(d, Releases) == []
            && (s.state == SHTDN ==> d == Teardown(s.buffer.id))
  {
    var r := Step(c, s, bytesReady);
    var d := NewEffects(s, r);
    ExitDelta(c, s, bytesReady);
    if s.state == SHTDN {
      ExitFacts(d, [], [], [], s.buffer.id);
    } else {
      var b := EnsureRoom(s.buffer, c);
      ExitFacts(d, Kick(s.state), Swap(s.buffer, c), [DeviceRead(ReadTarget(b, c))], b.id);
    }
  }

  /** The effects of a leaving iteration, laid out one by one. */
  lemma ExitDelta(c: Config, s: Loop, bytesReady: int)
    requires c.Valid() && s.buffer.Valid()
    requires s.state == SHTDN || (s.state in {START, RUN} && bytesReady != c.frameSize)
    ensures Step(c, s, bytesReady).Exit?
    ensures var r := Step(c, s, bytesReady);
            var b := EnsureRoom(s.buffer, c);
            && r.loop.state == s.state && r.loop.queue == s.queue
            && (s.state == SHTDN ==>
                  r.loop.buffer.id == s.buffer.id
                  && NewEffects(s, r) == [] + ([] + [] + Teardown(s.buffer.id)))
            && (s.state != SHTDN ==>
                  r.loop.buffer.id == b.id
                  && NewEffects(s, r) == Kick(s.state) + (Swap(s.buffer, c) + [DeviceRead(ReadTarget(b, c))] + Teardown(b.id)))
  {
    var r := Step(c, s, bytesReady);
    if s.state == SHTDN {
      assert NewEffects(s, r) == [] + ([] + [] + Teardown(s.buffer.id));
    } else {
      var b := EnsureRoom(s.buffer, c);
      var kick := Kick(s.state);
      var swap := Swap(s.buffer, c);
      var d := kick + (swap + [DeviceRead(ReadTarget(b, c))]) + Teardown(b.id);
      assert r.loop.trace == s.trace + d;
      assert NewEffects(s, r) == d;
      assert d == kick + (swap + [DeviceRead(ReadTarget(b, c))] + Teardown(b.id));
    }
  }

  /** Everything a leaving iteration's effects show, given their layout. */
  lemma ExitFacts(d: seq<Effect>, kick: seq<Effect>, swap: seq<Effect>, read: seq<Effect>, id: nat)
    requires kick == [] || kick == [DeviceStart]
    requires forall i :: 0 <= i < |swap| ==> Bookkeeping(swap[i]) && swap[i] != ReleaseBuffer(id)
    requires read == [] || (|read| == 1 && read[0].DeviceRead?)
    requires d == kick + (swap + read + Teardown(id))
    ensures Of(d, Sends) == [] && Of(d, Writes) == [] && Of(d, Releases) == []
    ensures Of(d, Reads) == (if read == [] then [] else [read[0].into])
    ensures Count(d, DeviceStop) == 1 && Count(d, DeviceRelease) == 1 && Count(d, ReleaseBuffer(id)) == 1
    ensures Count(d, DeviceStart) == |kick|
  {
    ExitSummary(kick, swap, read, id);
    ExitViews(kick, swap, read, id, Reads);
    ExitViews(kick, swap, read, id, Releases);
    ExitStarts(kick, swap, read, id);
  }

  /** What a leaving iteration shows of kind k is what its read shows. */
  lemma ExitViews(kick: seq<Effect>, swap: seq<Effect>, read: seq<Effect>, id: nat, k: Kind)
    requires kick == [] || kick == [DeviceStart]
    requires forall i :: 0 <= i < |swap| ==> Bookkeeping(swap[i])
    requires read == [] || (|read| == 1 && read[0].DeviceRead?)
    ensures Of(kick + (swap + read + Teardown(id)), k) == (if read == [] then [] else Payload(read[0], k))
  {
    var t := Teardown(id);
    var r := if read == [] then [] else Payload(read[0], k);
    PieceQuiet(kick, swap, read, k);
    TeardownEffects(id, k, DeviceStart);
    OfAppend(swap, read, k);
    assert Of(swap + read, k) == r;
    OfAppend(swap + read, t, k);
    assert Of(swap + read + t, k) == r;
    OfAppend(kick, swap + read + t, k);
  }

  /** A leaving iteration starts the device exactly when it kicks. */
  lemma ExitStarts(kick: seq<Effect>, swap: seq<Effect>, read: seq<Effect>, id: nat)
    requires kick == [] || kick == [DeviceStart]
    requires forall i :: 0 <= i < |swap| ==> Bookkeeping(swap[i])
    requires read == [] || (|read| == 1 && read[0].DeviceRead?)
    ensures Count(kick + (swap + read + Teardown(id)), DeviceStart) == |kick|
  {
    var t := Teardown(id);
    PieceQuiet(kick, swap, read, Reads);
    TeardownEffects(id, Reads, DeviceStart);
    CountAppend(swap, read, DeviceStart);
    assert Count(swap + read, DeviceStart) == 0;
    CountAppend(swap + read, t, DeviceStart);
    assert Count(swap + read + t, DeviceStart) == 0;
    CountAppend(kick, swap + read + t, DeviceStart);
  }

  /** The pieces before the teardown: the kick carries no view and is the
      only device start, the swap carries neither, the read carries its view
      and no device start. */
  lemma PieceQuiet(kick: seq<Effect>, swap: seq<Effect>, read: seq<Effect>, k: Kind)
    requires kick == [] || kick == [DeviceStart]
    requires forall i :: 0 <= i < |swap| ==> Bookkeeping(swap[i])
    requires read == [] || (|read| == 1 && read[0].DeviceRead?)
    ensures Of(kick, k) == [] && Count(kick, DeviceStart) == |kick|
    ensures Of(swap, k) == [] && Count(swap, DeviceStart) == 0
    ensures Of(read, k) == (if read == [] then [] else Payload(read[0], k))
    ensures Count(read, DeviceStart) == 0
  {
    KickQuiet(kick, k);
    SwapQuiet(swap, k);
    ReadQuiet(read, k);
  }

  lemma KickQuiet(kick: seq<Effect>, k: Kind)
    requires kick == [] || kick == [DeviceStart]
    ensures Of(kick, k) == [] && Count(kick, DeviceStart) == |kick|
  {
    if kick != [] {
      assert kick[..0] == [];
    }
  }

  lemma SwapQuiet(swap: seq<Effect>, k: Kind)
    requires forall i :: 0 <= i < |swap| ==> Bookkeeping(swap[i])
    ensures Of(swap, k) == [] && Count(swap, DeviceStart) == 0
  {
    assert swap + [] == swap;
    QuietPrefix(swap, [], k, DeviceStart);
  }

  lemma ReadQuiet(read: seq<Effect>, k: Kind)
    requires read == [] || (|read| == 1 && read[0].DeviceRead?)
    ensures Of(read, k) == (if read == [] then [] else Payload(read[0], k))
    ensures Count(read, DeviceStart) == 0
  {
    if read != [] {
      assert read[..|read| - 1] == [];
    }
  }


  lemma ExitSummary(kick: seq<Effect>, swap: seq<Effect>, read: seq<Effect>, id: nat)
    requires kick == [] || kick == [DeviceStart]
    requires forall i :: 0 <= i < |swap| ==> Bookkeeping(swap[i]) && swap[i] != ReleaseBuffer(id)
    requires read == [] || (|read| == 1 && read[0].DeviceRead?)
    ensures var d := kick + (swap + read + Teardown(id));
            && Of(d, Sends) == [] && Of(d, Writes) == []
            && Count(d, DeviceStop) == 1 && Count(d, DeviceRelease) == 1
            && Count(d, ReleaseBuffer(id)) == 1
  {
    ExitEffects(kick, swap, read, id, Sends, DeviceStop);
    ExitEffects(kick, swap, read, id, Writes, DeviceRelease);
    ExitEffects(kick, swap, read, id, Writes, ReleaseBuffer(id));
  }

  lemma ExitEffects(kick: seq<Effect>, swap: seq<Effect>, read: seq<Effect>, id: nat, k: Kind, e: Effect)
    requires kick == [] || kick == [DeviceStart]
    requires forall i :: 0 <= i < |swap| ==> Bookkeeping(swap[i]) && swap[i] != ReleaseBuffer(id)
    requires read == [] || (|read| == 1 && read[0].DeviceRead?)
    requires k in {Sends, Writes} && e in {DeviceStop, DeviceRelease, ReleaseBuffer(id)}
    ensures Of(kick + (swap + read + Teardown(id)), k) == []
    ensures Count(kick + (swap + read + Teardown(id)), e) == 1
  {
    var q := kick + swap + read;
    assert kick + (swap + read + Teardown(id)) == q + Teardown(id);
    forall i | 0 <= i < |q|
      ensures Payload(q[i], k) == [] && q[i] != e
    {
      if i < |kick| {
        assert q[i] == DeviceStart;
      } else if i < |kick| + |swap| {
        assert q[i] == swap[i - |kick|];
      } else {
        assert q[i] == read[i - |kick| - |swap|];
      }
    }
    QuietPrefix(q, Teardown(id), k, e);
    TeardownEffects(id, k, e);
  }

  /** The teardown carries no view; it stops the device, releases it and
      returns the buffer held, once each, and does nothing else. */
  lemma TeardownEffects(id: nat, k: Kind, e: Effect)
    ensures Of(Teardown(id), k) == []
    ensures Count(Teardown(id), e) == (if e == DeviceStop || e == DeviceRelease || e == ReleaseBuffer(id) then 1 else 0)
  {
    var t3 := [ReleaseBuffer(id)] + [];
    var t2 := [DeviceRelease] + t3;
    assert [DeviceStop] + t2 == Teardown(id);
    OfCons(ReleaseBuffer(id), [], k);
    OfCons(DeviceRelease, t3, k);
    OfCons(DeviceStop, t2, k);
    CountCons(ReleaseBuffer(id), [], e);
    CountCons(DeviceRelease, t3, e);
    CountCons(DeviceStop, t2, e);
  }
}

=== FILE: device_selection.dfy ===
/**
  The factory AudioRecorder.create (src/org/jsl/wfwt/AudioRecorder.java,
  lines 260-289): the first sample rate of a fixed list that the platform
  supports for mono 16-bit capture decides the device buffer size, the audio
  format string and the frame size. The platform query
  AudioRecord.getMinBufferSize is a parameter (an oracle from rate to the int
  it returns).
*/
module DeviceSelection {
  import opened Wrappers
  import opened FrameLayout

  /** Java's int. */
  type Int32 = x: int | -0x8000_0000 <= x < 0x8000_0000

  const IntMax: int := 0x7FFF_FFFF

  /** Java int arithmetic wraps modulo 2^32. */
  function Wrap32(x: int): (r: Int32)
    ensures (r - x) % 0x1_0000_0000 == 0
    ensures -0x8000_0000 <= x < 0x8000_0000 ==> r == x
  {
    var m := x % 0x1_0000_0000;
    if m < 0x8000_0000 then m else m - 0x1_0000_0000
  }

  /** The candidate rates, in the order they are tried. */
  const Rates: seq<nat> := [11025, 16000, 22050, 44100]

  /** The values of AudioRecord.ERROR and AudioRecord.ERROR_BAD_VALUE on the
      Android platform. */
  const ERROR: int := -1
  const ERROR_BAD_VALUE: int := -2

  /** Short.SIZE / Byte.SIZE: bytes per 16-bit sample. */
  const BytesPerSample: nat := 16 / 8

  /** The factory accepts a rate unless the query answers with one of the two
      error codes (any other value, even a negative one, is accepted). */
  predicate Supported(minBufferSize: int)
  {
    minBufferSize != ERROR && minBufferSize != ERROR_BAD_VALUE
  }

  function Pow2(k: nat): (p: nat)
    ensures p >= 1
  {
    if k == 0 then 1 else 2 * Pow2(k - 1)
  }

  /** Bitwise and of the low `width` bits of two non-negative integers: Java's
      `&` on two non-negative ints when width is 31. */
  function AndBits(a: nat, b: nat, width: nat): (r: nat)
    ensures r < Pow2(width)
    decreases width
  {
    if width == 0 then 0
    else 2 * AndBits(a / 2, b / 2, width - 1) + (if a % 2 == 1 && b % 2 == 1 then 1 else 0)
  }

  /** Masking with all ones keeps a value that fits in the mask. */
  lemma {:induction false} AndAllOnes(x: nat, k: nat)
    requires x < Pow2(k)
    ensures AndBits(x, Pow2(k) - 1, k) == x
    decreases k
  {
    if k > 0 {
      assert (Pow2(k) - 1) / 2 == Pow2(k - 1) - 1;
      assert (Pow2(k) - 1) % 2 == 1;
      AndAllOnes(x / 2, k - 1);
    }
  }

  /** `x & (Integer.MAX_VALUE - 1)` clears the lowest bit of a non-negative int. */
  lemma ClearLowestBit(x: nat)
    requires x <= IntMax
    ensures AndBits(x, IntMax - 1, 31) == x - x % 2
  {
    Pow2Of31();
    MaskBelowTop(x, 31, IntMax - 1);
  }

  /** Masking with all ones but the lowest bit clears that bit. */
  lemma MaskBelowTop(x: nat, k: nat, mask: nat)
    requires k >= 1 && x < Pow2(k) && mask + 2 == Pow2(k)
    ensures AndBits(x, mask, k) == x - x % 2
  {
    assert Pow2(k) == 2 * Pow2(k - 1);
    assert mask / 2 == Pow2(k - 1) - 1 && mask % 2 == 0;
    AndAllOnes(x / 2, k - 1);
    assert x - x % 2 == 2 * (x / 2);
  }

  lemma Pow2Of31()
    ensures Pow2(31) == IntMax + 1
  {
    assert Pow2(10) == 1024;
    assert Pow2(20) == 1024 * Pow2(10) by { Pow2Add(10, 10); }
    assert Pow2(30) == 1024 * Pow2(20) by { Pow2Add(20, 10); }
  }

  lemma {:induction false} Pow2Add(a: nat, b: nat)
    ensures Pow2(a + b) == Pow2(a) * Pow2(b)
    decreases b
  {
    if b > 0 {
      Pow2Add(a, b - 1);
      assert Pow2(a + b) == 2 * Pow2(a + b - 1);
    }
  }

  /** The frame size for a rate: half a second of 16-bit mono samples,
      `(sampleRate * 2 / 2) & (Integer.MAX_VALUE - 1)`. The result is the rate
      with its lowest bit cleared: even, at most the rate, and at most one
      below it. The requirement rules out Java overflow of sampleRate * 2; it
      holds for every candidate rate. */
  function FrameSize(sampleRate: nat): (r: nat)
    requires sampleRate * BytesPerSample <= IntMax
    ensures r == sampleRate - sampleRate % 2
    ensures r % 2 == 0 && r <= sampleRate && sampleRate - r <= 1
  {
    var half := sampleRate * BytesPerSample / 2;
    HalfOfDouble(sampleRate);
    ClearLowestBit(half);
    EvenBelow(sampleRate);
    AndBits(half, IntMax - 1, 31)
  }

  lemma HalfOfDouble(x: nat)
    ensures x * BytesPerSample / 2 == x
  {
    assert BytesPerSample == 2;
    assert x * 2 == 2 * x;
  }

  lemma EvenBelow(x: nat)
    ensures (x - x % 2) % 2 == 0 && x - x % 2 <= x && x % 2 <= 1
  {
    assert x == 2 * (x / 2) + x % 2;
    assert x - x % 2 == 2 * (x / 2);
  }

  lemma CandidateFrameSizes()
    ensures FrameSize(11025) == 11024
    ensures FrameSize(16000) == 16000 && FrameSize(22050) == 22050 && FrameSize(44100) == 44100
  {
  }

  function DigitChar(d: nat): (ch: char)
    requires d < 10
    ensures '0' <= ch <= '9'
  {
    (d + '0' as int) as char
  }

  predicate AllDigits(s: string)
  {
    forall i :: 0 <= i < |s| ==> '0' <= s[i] <= '9'
  }

  /** Integer.toString of a non-negative int: its decimal digits, without
      leading zeros. */
  function Decimal(n: nat): (s: string)
    ensures |s| >= 1 && AllDigits(s)
    ensures n > 0 ==> s[0] != '0'
    ensures n < 10 <==> |s| == 1
    decreases n
  {
    if n < 10 then [DigitChar(n)] else Decimal(n / 10) + [DigitChar(n % 10)]
  }

  /** Reads a string of decimal digits back as a number. */
  function ParseDecimal(s: string): nat
    requires AllDigits(s)
    decreases |s|
  {
    if s == [] then 0 else ParseDecimal(s[..|s| - 1]) * 10 + (s[|s| - 1] as int - '0' as int)
  }

  lemma {:induction false} DecimalRoundTrip(n: nat)
    ensures ParseDecimal(Decimal(n)) == n
    decreases n
  {
    if n >= 10 {
      var s := Decimal(n);
      assert s[..|s| - 1] == Decimal(n / 10);
      DecimalRoundTrip(n / 10);
    }
  }

  const FormatPrefix: string := "PCM:"

  /** The audio format identifier for a rate: "PCM:" followed by the rate. */
  function AudioFormat(sampleRate: nat): string
  {
    FormatPrefix + Decimal(sampleRate)
  }

  /** Reads the rate back out of an audio format identifier. */
  function RateOf(format: string): Option<nat>
  {
    if |format| > |FormatPrefix| && format[..|FormatPrefix|] == FormatPrefix && AllDigits(format[|FormatPrefix|..])
    then Some(ParseDecimal(format[|FormatPrefix|..]))
    else None
  }

  /** The format identifier names exactly the rate it was built from, so two
      recorders have the same format exactly when they have the same rate. */
  lemma FormatRoundTrip(sampleRate: nat)
    ensures RateOf(AudioFormat(sampleRate)) == Some(sampleRate)
  {
    var f := AudioFormat(sampleRate);
    assert f[..|FormatPrefix|] == FormatPrefix;
    assert f[|FormatPrefix|..] == Decimal(sampleRate);
    DecimalRoundTrip(sampleRate);
  }

  lemma FormatInjective(a: nat, b: nat)
    ensures AudioFormat(a) == AudioFormat(b) <==> a == b
  {
    FormatRoundTrip(a);
    FormatRoundTrip(b);
  }

  /** What the factory builds: the chosen rate, its format identifier, the
      device's internal buffer size, the frame size and the replay flag. */
  datatype Recorder = Recorder(sampleRate: nat, audioFormat: string, deviceBufferSize: Int32,
                               frameSize: nat, repeat: bool)

  /** The recorder for one supported rate: device buffer ten times the
      minimum (in Java int arithmetic), format "PCM:" + rate, frame size the
      rate with its lowest bit cleared. */
  function Configure(sampleRate: nat, minBufferSize: Int32, repeat: bool): (r: Recorder)
    requires sampleRate in Rates
    ensures r.sampleRate == sampleRate && r.repeat == repeat
    ensures RateOf(r.audioFormat) == Some(sampleRate)
    ensures r.frameSize % 2 == 0 && r.frameSize <= sampleRate && sampleRate - r.frameSize <= 1
    ensures r.frameSize > 0
    ensures (r.deviceBufferSize - minBufferSize * 10) % 0x1_0000_0000 == 0
    ensures -0x8000_0000 <= minBufferSize * 10 < 0x8000_0000 ==> r.deviceBufferSize == minBufferSize * 10
  {
    FormatRoundTrip(sampleRate);
    Recorder(sampleRate, AudioFormat(sampleRate), Wrap32(minBufferSize * 10), FrameSize(sampleRate), repeat)
  }

  /** Rate number i is the first one of the list the platform supports. */
  predicate FirstSupported(minBufferSize: int -> Int32, i: nat)
  {
    && i < |Rates|
    && Supported(minBufferSize(Rates[i]))
    && forall j :: 0 <= j < i ==> !Supported(minBufferSize(Rates[j]))
  }

  /** Tries the rates from index `from` on, in order. */
  function SelectRate(minBufferSize: int -> Int32, from: nat): (r: Option<nat>)
    requires from <= |Rates|
    ensures r.Some? ==> from <= r.value < |Rates| && Supported(minBufferSize(Rates[r.value]))
    ensures r.Some? ==> forall j :: from <= j < r.value ==> !Supported(minBufferSize(Rates[j]))
    ensures r.None? <==> forall j :: from <= j < |Rates| ==> !Supported(minBufferSize(Rates[j]))
    decreases |Rates| - from
  {
    if from == |Rates| then None
    else if Supported(minBufferSize(Rates[from])) then Some(from)
    else SelectRate(minBufferSize, from + 1)
  }

  /** AudioRecorder.create: the recorder for the first supported rate, or
      nothing (null in Java) when no rate of the list is supported. */
  function Create(minBufferSize: int -> Int32, repeat: bool): (r: Option<Recorder>)
    ensures r.None? <==> forall i :: 0 <= i < |Rates| ==> !Supported(minBufferSize(Rates[i]))
    ensures r.Some? ==> exists i: nat :: FirstSupported(minBufferSize, i)
                                    && r.value == Configure(Rates[i], minBufferSize(Rates[i]), repeat)
  {
    match SelectRate(minBufferSize, 0)
    case None => None
    case Some(i) =>
      assert FirstSupported(minBufferSize, i);
      Some(Configure(Rates[i], minBufferSize(Rates[i]), repeat))
  }

  /** With 11025 unsupported and 16000 supported, the recorder is built for
      16000: its format is "PCM:16000" and its frame size 16000. */
  lemma SecondRateChosen(minBufferSize: int -> Int32, repeat: bool)
    requires !Supported(minBufferSize(11025)) && Supported(minBufferSize(16000))
    ensures Create(minBufferSize, repeat).Some?
    ensures Create(minBufferSize, repeat).value.audioFormat == "PCM:16000"
    ensures Create(minBufferSize, repeat).value.frameSize == 16000
  {
    assert SelectRate(minBufferSize, 0) == SelectRate(minBufferSize, 1) == Some(1);
    var rec := Configure(16000, minBufferSize(16000), repeat);
    assert Create(minBufferSize, repeat) == Some(rec);
    assert rec.audioFormat == AudioFormat(16000) && rec.frameSize == FrameSize(16000);
    Format16000();
  }

  lemma Format16000()
    ensures AudioFormat(16000) == "PCM:16000"
  {
    Decimal16000();
  }

  lemma Decimal16000()
    ensures Decimal(16000) == "16000"
  {
    assert Decimal(1) == "1";
    assert Decimal(16) == Decimal(1) + [DigitChar(6)];
    assert Decimal(160) == Decimal(16) + [DigitChar(0)];
    assert Decimal(1600) == Decimal(160) + [DigitChar(0)];
    assert Decimal(16000) == Decimal(1600) + [DigitChar(0)];
  }

  /** The loop configuration of a created recorder, for a protocol layout
      that fits every frame: it is a valid configuration. */
  lemma CreatedConfigValid(sampleRate: nat, minBufferSize: Int32, repeat: bool, frame: AudioFrame)
    requires sampleRate in Rates && WellFormed(frame)
    ensures var rec := Configure(sampleRate, minBufferSize, repeat);
            Config(rec.frameSize, frame, rec.repeat).Valid()
  {
    var rec := Configure(sampleRate, minBufferSize, repeat);
    WellFormedConfig(rec.frameSize, frame, rec.repeat);
  }
}

=== FILE: effects.dfy ===
/**
  The observable effects of the capture thread, recorded in order: calls on
  the capture device, on the transport, on the replay player, and buffer
  acquisitions and releases.
*/
module Effects {
  import opened FrameLayout

  datatype Effect =
    | AcquireBuffer(id: nat)          // byteBufferCache.get()
    | ReleaseBuffer(id: nat)          // byteBuffer.release()
    | DeviceStart                     // audioRecord.startRecording()
    | DeviceStop                      // audioRecord.stop()
    | DeviceRelease                   // audioRecord.release()
    | DeviceRead(into: View)          // audioRecord.read(...) of frameSize bytes
    | Send(message: View)             // sessionManager.send(msg)
    | PlayerWrite(frame: View)        // audioPlayer.write(msg)
    | ReleaseView(view: View)         // msg.release() on a slice

  /** The kinds of effect that carry a view. */
  datatype Kind = Reads | Sends | Writes | Releases

  function Payload(e: Effect, k: Kind): seq<View>
  {
    match (e, k)
    case (DeviceRead(v), Reads) => [v]
    case (Send(v), Sends) => [v]
    case (PlayerWrite(v), Writes) => [v]
    case (ReleaseView(v), Releases) => [v]
    case _ => []
  }

  /** The views carried by the effects of one kind, in trace order. */
  function Of(t: seq<Effect>, k: Kind): seq<View>
    decreases |t|
  {
    if t == [] then [] else Of(t[..|t| - 1], k) + Payload(t[|t| - 1], k)
  }

  lemma {:induction false} OfAppend(a: seq<Effect>, b: seq<Effect>, k: Kind)
    ensures Of(a + b, k) == Of(a, k) + Of(b, k)
    decreases |b|
  {
    if b == [] {
      assert a + b == a;
    } else {
      var b' := b[..|b| - 1];
      assert (a + b)[..|a + b| - 1] == a + b';
      assert (a + b)[|a + b| - 1] == b[|b| - 1];
      OfAppend(a, b', k);
      assert Of(a + b, k) == Of(a, k) + Of(b', k) + Payload(b[|b| - 1], k);
    }
  }

  lemma OfCons(e: Effect, t: seq<Effect>, k: Kind)
    ensures Of([e] + t, k) == Payload(e, k) + Of(t, k)
  {
    OfAppend([e], t, k);
    assert [e][..0] == [];
  }

  /** How many times an effect occurs in a trace. */
  function Count(t: seq<Effect>, e: Effect): nat
    decreases |t|
  {
    if t == [] then 0 else Count(t[..|t| - 1], e) + (if t[|t| - 1] == e then 1 else 0)
  }

  lemma {:induction false} CountAppend(a: seq<Effect>, b: seq<Effect>, e: Effect)
    ensures Count(a + b, e) == Count(a, e) + Count(b, e)
    decreases |b|
  {
    if b == [] {
      assert a + b == a;
    } else {
      var b' := b[..|b| - 1];
      assert (a + b)[..|a + b| - 1] == a + b';
      CountAppend(a, b', e);
    }
  }

  /** Appending one effect adds its payload at the end. */
  lemma OfSnoc(t: seq<Effect>, e: Effect, k: Kind)
    ensures Of(t + [e], k) == Of(t, k) + Payload(e, k)
  {
    assert (t + [e])[..|t + [e]| - 1] == t;
  }

  lemma CountCons(x: Effect, t: seq<Effect>, e: Effect)
    ensures Count([x] + t, e) == (if x == e then 1 else 0) + Count(t, e)
  {
    CountAppend([x], t, e);
    assert [x][..0] == [];
  }

  /** Buffer acquisitions and releases carry no view and involve no device. */
  predicate Bookkeeping(e: Effect)
  {
    e.AcquireBuffer? || e.ReleaseBuffer?
  }

  /** A prefix carrying no view of kind k and no occurrence of e changes
      neither what Of sees nor what Count counts. */
  lemma {:induction false} QuietPrefix(q: seq<Effect>, t: seq<Effect>, k: Kind, e: Effect)
    requires forall i :: 0 <= i < |q| ==> Payload(q[i], k) == [] && q[i] != e
    ensures Of(q + t, k) == Of(t, k)
    ensures Count(q + t, e) == Count(t, e)
    decreases |q|
  {
    if q != [] {
      assert q + t == [q[0]] + (q[1..] + t);
      OfCons(q[0], q[1..] + t, k);
      CountCons(q[0], q[1..] + t, e);
      QuietPrefix(q[1..], t, k, e);
    } else {
      assert q + t == t;
    }
  }

  /** The drain of the replay queue: each queued frame is written to the player
      and then released, in insertion order. */
  function Replay(q: seq<View>): (r: seq<Effect>)
    ensures |r| == 2 * |q|
    decreases |q|
  {
    if q == [] then []
    else
      var last := q[|q| - 1];
      Replay(q[..|q| - 1]) + [PlayerWrite(last), ReleaseView(last)]
  }

  /** The drain writes exactly the queued frames, releases exactly those, and
      sends and reads nothing. */
  lemma {:induction false} ReplayPayloads(q: seq<View>)
    ensures Of(Replay(q), Writes) == q
    ensures Of(Replay(q), Releases) == q
    ensures Of(Replay(q), Sends) == [] && Of(Replay(q), Reads) == []
    decreases |q|
  {
    if q != [] {
      ReplayPayloads(q[..|q| - 1]);
      ReplayStepPayloads(Replay(q[..|q| - 1]), q[|q| - 1], q);
    }
  }

  lemma ReplayStepPayloads(p: seq<Effect>, last: View, q: seq<View>)
    requires q != [] && last == q[|q| - 1]
    requires Of(p, Writes) == q[..|q| - 1] && Of(p, Releases) == q[..|q| - 1]
    requires Of(p, Sends) == [] && Of(p, Reads) == []
    ensures Of(p + [PlayerWrite(last), ReleaseView(last)], Writes) == q
    ensures Of(p + [PlayerWrite(last), ReleaseView(last)], Releases) == q
    ensures Of(p + [PlayerWrite(last), ReleaseView(last)], Sends) == []
    ensures Of(p + [PlayerWrite(last), ReleaseView(last)], Reads) == []
  {
    assert q == q[..|q| - 1] + [last];
    ReplayStepKind(p, last, Writes);
    ReplayStepKind(p, last, Releases);
    ReplayStepKind(p, last, Sends);
    ReplayStepKind(p, last, Reads);
  }

  /** One drained frame adds its write and its release, in that order. */
  lemma ReplayStepKind(p: seq<Effect>, last: View, k: Kind)
    ensures Of(p + [PlayerWrite(last), ReleaseView(last)], k)
            == Of(p, k) + Payload(PlayerWrite(last), k) + Payload(ReleaseView(last), k)
  {
    var p1 := p + [PlayerWrite(last)];
    assert p + [PlayerWrite(last), ReleaseView(last)] == p1 + [ReleaseView(last)];
    OfSnoc(p1, ReleaseView(last), k);
    OfSnoc(p, PlayerWrite(last), k);
  }

  /** Frame by frame, the drain writes a frame and releases it before moving on
      to the next one. */
  lemma {:induction false} ReplayOrder(q: seq<View>)
    ensures forall i :: 0 <= i < |q| ==>
              Replay(q)[2 * i] == PlayerWrite(q[i]) && Replay(q)[2 * i + 1] == ReleaseView(q[i])
    decreases |q|
  {
    if q != [] {
      var q' := q[..|q| - 1];
      ReplayOrder(q');
      forall i | 0 <= i < |q|
        ensures Replay(q)[2 * i] == PlayerWrite(q[i]) && Replay(q)[2 * i + 1] == ReleaseView(q[i])
      {
        if i < |q| - 1 {
          assert q'[i] == q[i];
        }
      }
    }
  }

  lemma CountSnoc(t: seq<Effect>, x: Effect, e: Effect)
    ensures Count(t + [x], e) == Count(t, e) + (if x == e then 1 else 0)
  {
    assert (t + [x])[..|t + [x]| - 1] == t;
  }

  /** The drain touches neither the device nor the buffers. */
  lemma {:induction false} ReplayCounts(q: seq<View>, e: Effect)
    requires !e.PlayerWrite? && !e.ReleaseView?
    ensures Count(Replay(q), e) == 0
    decreases |q|
  {
    if q != [] {
      var last := q[|q| - 1];
      var p := Replay(q[..|q| - 1]);
      assert Replay(q) == (p + [PlayerWrite(last)]) + [ReleaseView(last)];
      ReplayCounts(q[..|q| - 1], e);
      CountSnoc(p + [PlayerWrite(last)], ReleaseView(last), e);
      CountSnoc(p, PlayerWrite(last), e);
    }
  }

  /** The buffer acquisitions and releases of a trace, in order. */
  function Buffers(t: seq<Effect>): seq<Effect>
    decreases |t|
  {
    if t == [] then [] else Buffers(t[..|t| - 1]) + (if Bookkeeping(t[|t| - 1]) then [t[|t| - 1]] else [])
  }

  lemma {:induction false} BuffersAppend(a: seq<Effect>, b: seq<Effect>)
    ensures Buffers(a + b) == Buffers(a) + Buffers(b)
    decreases |b|
  {
    if b == [] {
      assert a + b == a;
    } else {
      var b' := b[..|b| - 1];
      var x := b[|b| - 1];
      assert (a + b)[..|a + b| - 1] == a + b';
      assert (a + b)[|a + b| - 1] == x;
      BuffersAppend(a, b');
      assert Buffers(a + b) == Buffers(a) + Buffers(b') + (if Bookkeeping(x) then [x] else []);
    }
  }

  lemma BuffersSingle(e: Effect)
    ensures Buffers([e]) == if Bookkeeping(e) then [e] else []
  {
    assert [e][..0] == [];
  }

  /** Only buffer events are kept, so counting a buffer event in the
      projection counts it in the trace. */
  lemma {:induction false} CountBuffers(t: seq<Effect>, e: Effect)
    requires Bookkeeping(e)
    ensures Count(Buffers(t), e) == Count(t, e)
    decreases |t|
  {
    if t != [] {
      var t' := t[..|t| - 1];
      var x := t[|t| - 1];
      CountBuffers(t', e);
      if Bookkeeping(x) {
        CountSnoc(Buffers(t'), x, e);
      } else {
        assert Buffers(t) == Buffers(t');
      }
    }
  }

  /** The drain acquires and releases no buffer. */
  lemma {:induction false} ReplayBuffers(q: seq<View>)
    ensures Buffers(Replay(q)) == []
    decreases |q|
  {
    if q != [] {
      var last := q[|q| - 1];
      var p := Replay(q[..|q| - 1]);
      ReplayBuffers(q[..|q| - 1]);
      BuffersAppend(p, [PlayerWrite(last), ReleaseView(last)]);
      BuffersAppend([PlayerWrite(last)], [ReleaseView(last)]);
      BuffersSingle(PlayerWrite(last));
      BuffersSingle(ReleaseView(last));
    }
  }

  /** The buffer discipline of the capture thread after it has taken n + 1
      buffers from the cache: acquisition 0, then for each later acquisition
      the release of the one before it. At most one buffer is held at a time
      and it is always the last one acquired. */
  function Handover(n: nat): (h: seq<Effect>)
    ensures |h| == 2 * n + 1 && h[|h| - 1] == AcquireBuffer(n)
  {
    if n == 0 then [AcquireBuffer(0)] else Handover(n - 1) + [ReleaseBuffer(n - 1), AcquireBuffer(n)]
  }

  /** In the handover of n + 1 buffers, acquisitions 0..n are each taken once
      and acquisitions 0..n-1 each released once; nothing else occurs. */
  lemma {:induction false} HandoverCounts(n: nat, i: nat)
    ensures Count(Handover(n), AcquireBuffer(i)) == (if i <= n then 1 else 0)
    ensures Count(Handover(n), ReleaseBuffer(i)) == (if i < n then 1 else 0)
  {
    if n == 0 {
      assert [AcquireBuffer(0)][..0] == [];
    } else {
      HandoverCounts(n - 1, i);
      var pair := [ReleaseBuffer(n - 1), AcquireBuffer(n)];
      CountAppend(Handover(n - 1), pair, AcquireBuffer(i));
      CountAppend(Handover(n - 1), pair, ReleaseBuffer(i));
      PairCounts(n - 1, i);
    }
  }

  lemma PairCounts(k: nat, i: nat)
    ensures Count([ReleaseBuffer(k), AcquireBuffer(k + 1)], AcquireBuffer(i)) == (if i == k + 1 then 1 else 0)
    ensures Count([ReleaseBuffer(k), AcquireBuffer(k + 1)], ReleaseBuffer(i)) == (if i == k then 1 else 0)
  {
    assert [ReleaseBuffer(k), AcquireBuffer(k + 1)] == [ReleaseBuffer(k)] + [AcquireBuffer(k + 1)];
    assert [ReleaseBuffer(k)] == [] + [ReleaseBuffer(k)];
    CountSnoc([ReleaseBuffer(k)], AcquireBuffer(k + 1), AcquireBuffer(i));
    CountSnoc([ReleaseBuffer(k)], AcquireBuffer(k + 1), ReleaseBuffer(i));
    CountSnoc([], ReleaseBuffer(k), AcquireBuffer(i));
    CountSnoc([], ReleaseBuffer(k), ReleaseBuffer(i));
  }
}

=== FILE: frame_layout.dfy ===
/**
  Buffer cursor arithmetic of the capture loop in AudioRecorder.run()
  (src/org/jsl/wfwt/AudioRecorder.java, lines 139-173).

  Protocol.AudioFrame is not part of this model: its data offset and message
  size are taken as an abstract record, with the one assumption the loop relies
  on, that a message of n data bytes has room for its header and those n bytes.
  Buffers are modelled by their cursor only (position, limit, capacity), with
  java.nio semantics: a slice covers [position, limit) of its parent and leaves
  the parent's cursor unchanged.
*/
module FrameLayout {

  /** Protocol.AudioFrame: where the audio data begins inside a message, and
      the size of a whole message carrying n data bytes. */
  datatype AudioFrame = AudioFrame(dataOffs: nat, messageSize: nat -> nat)

  /** The layout assumption: every message holds its header and its data. */
  ghost predicate WellFormed(p: AudioFrame)
  {
    forall n: nat :: p.messageSize(n) >= p.dataOffs + n
  }

  /** What one recorder is built with: its frame size, the protocol layout and
      whether captured frames are kept for local replay. */
  datatype Config = Config(frameSize: nat, frame: AudioFrame, repeat: bool)
  {
    function MessageSize(): nat { frame.messageSize(frameSize) }

    function DataOffs(): nat { frame.dataOffs }

    /** The buffer size handed to the buffer cache: eight whole messages. */
    function CacheBufferSize(): nat { 8 * MessageSize() }

    /** A frame size the factory can produce, and a layout that fits it. */
    predicate Valid()
    {
      frameSize > 0 && MessageSize() >= DataOffs() + frameSize
    }
  }

  /** Any positive frame size over a well-formed layout gives a valid config. */
  lemma WellFormedConfig(frameSize: nat, p: AudioFrame, repeat: bool)
    requires WellFormed(p) && frameSize > 0
    ensures Config(frameSize, p, repeat).Valid()
  {
    assert p.messageSize(frameSize) >= p.dataOffs + frameSize;
  }

  /** A buffer taken from the cache. `id` numbers the acquisitions: a buffer the
      cache recycles gets a new number each time it is handed out. */
  datatype Buffer = Buffer(id: nat, position: nat, limit: nat, capacity: nat)
  {
    predicate Valid() { position <= limit <= capacity }

    function Remaining(): nat
      requires Valid()
    {
      limit - position
    }

    /** As handed out by the cache: nothing written yet. */
    predicate Untouched() { position == 0 && limit == capacity }
  }

  /** A view [start, end) into the buffer acquired as number `buffer`. */
  datatype View = View(buffer: nat, start: nat, end: nat)
  {
    function Length(): int { end - start }
  }

  /** The buffer the cache hands out: empty cursor over its whole capacity. */
  function FreshBuffer(id: nat, c: Config): (b: Buffer)
    ensures b.Valid() && b.Untouched() && b.id == id
    ensures b.capacity == c.CacheBufferSize()
  {
    Buffer(id, 0, c.CacheBufferSize(), c.CacheBufferSize())
  }

  /** The refill check: the current buffer is kept when a whole message still
      fits between its position and its limit; otherwise it is released and the
      next buffer from the cache (acquisition number id + 1) is used. */
  function EnsureRoom(b: Buffer, c: Config): (r: Buffer)
    requires b.Valid()
    ensures r.Valid()
    ensures r.Remaining() >= c.MessageSize()
    ensures b.Remaining() >= c.MessageSize() ==> r == b
    ensures b.Remaining() < c.MessageSize() ==>
              r.Untouched() && r.id == b.id + 1 && r.capacity == c.CacheBufferSize()
  {
    if NeedsRefill(b, c) then FreshBuffer(b.id + 1, c) else b
  }

  /** Whether the refill check replaces the buffer. */
  predicate NeedsRefill(b: Buffer, c: Config)
    requires b.Valid()
  {
    b.Remaining() < c.MessageSize()
  }

  /** A buffer that is either untouched or used up comes out of the refill
      check untouched: the next message always starts at position 0. */
  lemma RoomAtStart(b: Buffer, c: Config)
    requires c.Valid() && b.Valid() && b.capacity == c.CacheBufferSize()
    requires b.Untouched() || b.Remaining() == 0
    ensures EnsureRoom(b, c).Untouched() && EnsureRoom(b, c).capacity == c.CacheBufferSize()
    ensures EnsureRoom(b, c).id == b.id ==> b.Untouched()
    ensures EnsureRoom(b, c).id == b.id || EnsureRoom(b, c).id == b.id + 1
  {
  }

  /** Where the device read lands: frameSize bytes just past the header of the
      message that starts at the buffer's position. The debug check of the
      source (remaining >= frameSize after positioning past the header) holds. */
  function ReadTarget(b: Buffer, c: Config): (v: View)
    requires b.Valid() && c.Valid() && b.Remaining() >= c.MessageSize()
    ensures v.buffer == b.id
    ensures v.start == b.position + c.DataOffs()
    ensures v.Length() == c.frameSize
    ensures b.limit - v.start >= c.frameSize
    ensures b.position <= v.start && v.end <= b.position + c.MessageSize() <= b.limit
  {
    View(b.id, b.position + c.DataOffs(), b.position + c.DataOffs() + c.frameSize)
  }

  /** The outcome of packing one received frame: the whole message handed to
      the transport, its data-only part kept for replay, and the buffer with
      its cursor moved past the message. */
  datatype Carve = Carve(message: View, data: View, rest: Buffer)

  /** After a full read: set the extent to header + data, slice the message,
      slice its data part past the header, and move the position to the limit. */
  function CarveMessage(b: Buffer, c: Config): (r: Carve)
    requires b.Valid() && c.Valid() && b.Remaining() >= c.MessageSize()
    ensures r.message.buffer == b.id && r.data.buffer == b.id
    ensures r.message.start == b.position
    ensures r.message.Length() == c.MessageSize()
    ensures b.position <= r.message.start <= r.message.end <= b.limit <= b.capacity
    ensures r.data.start == r.message.start + c.DataOffs() && r.data.end == r.message.end
    ensures r.data.Length() >= c.frameSize
    ensures ReadTarget(b, c).start == r.data.start && ReadTarget(b, c).end <= r.data.end
    ensures r.rest.Valid() && r.rest.id == b.id && r.rest.capacity == b.capacity
    ensures r.rest.position == r.message.end
    ensures r.rest.Remaining() == 0
  {
    var end := b.position + c.MessageSize();
    var message := View(b.id, b.position, end);
    var data := View(b.id, b.position + c.DataOffs(), end);
    Carve(message, data, b.(limit := end, position := end))
  }

  /** A carved buffer never has room for another message, so the refill check
      always replaces it: as written, every buffer carries at most one message. */
  lemma CarvedBufferIsReplaced(b: Buffer, c: Config)
    requires b.Valid() && c.Valid() && b.Remaining() >= c.MessageSize()
    ensures NeedsRefill(CarveMessage(b, c).rest, c)
    ensures EnsureRoom(CarveMessage(b, c).rest, c).id == b.id + 1
  {
  }

  /** The data part that replay keeps for a message sent from this layout. */
  function DataPart(c: Config, m: View): (d: View)
    ensures d.buffer == m.buffer && d.end == m.end && d.start == m.start + c.DataOffs()
  {
    View(m.buffer, m.start + c.DataOffs(), m.end)
  }

  /** The message carved from a buffer and its data part agree with DataPart. */
  lemma CarveDataIsDataPart(b: Buffer, c: Config)
    requires b.Valid() && c.Valid() && b.Remaining() >= c.MessageSize()
    ensures CarveMessage(b, c).data == DataPart(c, CarveMessage(b, c).message)
  {
  }
}

=== FILE: interleaving.dfy ===
/**
  The recorder as a whole: control calls (startRecording, stopRecording,
  shutdown) and iterations of the capture loop, interleaved in any order.
  Every control call is atomic under the recorder's one lock, and the loop
  reads and writes the state only under that lock, so any concurrent
  execution is some sequence of these actions
  (src/org/jsl/wfwt/AudioRecorder.java, lines 93-243).
*/
module Interleaving {
  import opened RecorderState
  import opened FrameLayout
  import opened Effects
  import opened CaptureLoop
  import opened LoopInvariant
  import opened BufferProtocol

  /** A control call from another thread, or one iteration of the capture
      loop whose device read (if it reaches one) returns bytesReady. */
  datatype Action = Call(op: Control) | Tick(bytesReady: int)

  /** The loop record and whether the capture thread is still in its loop. */
  datatype System = System(loop: Loop, alive: bool)

  /** The recorder right after construction: state IDLE, thread started. */
  function Boot(c: Config): System
  {
    System(Initial(c), true)
  }

  /** One action. A control call only changes the state, whether or not the
      thread is still running. A tick does nothing once the thread has left
      its loop, or while the state is IDLE (the thread is waiting). */
  function Perform(c: Config, sys: System, a: Action): (r: System)
    requires c.Valid() && sys.loop.buffer.Valid()
    ensures r.loop.buffer.Valid()
    ensures !sys.alive ==> !r.alive && r.loop.trace == sys.loop.trace
    ensures a.Call? ==> r == sys.(loop := sys.loop.(state := Apply(a.op, sys.loop.state).next))
  {
    match a
    case Call(op) => sys.(loop := sys.loop.(state := Apply(op, sys.loop.state).next))
    case Tick(n) =>
      if !sys.alive then sys
      else
        match Step(c, sys.loop, n)
        case Parked => sys
        case Continue(l) => System(l, true)
        case Exit(l) => System(l, false)
  }

  /** A sequence of actions, in order. */
  function Run(c: Config, sys: System, acts: seq<Action>): (r: System)
    requires c.Valid() && sys.loop.buffer.Valid()
    ensures r.loop.buffer.Valid()
    decreases |acts|
  {
    if acts == [] then sys else Run(c, Perform(c, sys, acts[0]), acts[1..])
  }

  /** The invariant of the whole recorder: the loop invariant while the thread
      runs, its trace part afterwards, and the buffer handover throughout. */
  ghost predicate SysInv(c: Config, sys: System)
  {
    && TraceInv(c, sys.loop)
    && sys.loop.buffer.Valid()
    && (sys.alive ==> Inv(c, sys.loop) && Holding(sys.loop))
    && (!sys.alive ==> Returned(sys.loop))
  }

  lemma PerformPreservesInv(c: Config, sys: System, a: Action)
    requires c.Valid() && SysInv(c, sys)
    ensures SysInv(c, Perform(c, sys, a))
  {
    if a.Tick? && sys.alive {
      StepPreservesInv(c, sys.loop, a.bytesReady);
      StepKeepsHandover(c, sys.loop, a.bytesReady);
    }
  }

  /** Under every interleaving of control calls and loop iterations, the
      invariant holds: the buffer cursor stays sound, each message sits at the
      start of a buffer of its own, and with replay on every sent frame's data
      is either written to the player or still queued, in capture order. */
  lemma {:induction false} RunPreservesInv(c: Config, sys: System, acts: seq<Action>)
    requires c.Valid() && SysInv(c, sys)
    ensures SysInv(c, Run(c, sys, acts))
    decreases |acts|
  {
    if acts != [] {
      PerformPreservesInv(c, sys, acts[0]);
      RunPreservesInv(c, Perform(c, sys, acts[0]), acts[1..]);
    }
  }

  /** From construction, whatever happens: replay accounting and message
      placement hold of the trace. */
  lemma Reachable(c: Config, acts: seq<Action>)
    requires c.Valid()
    ensures var r := Run(c, Boot(c), acts);
            var sends := Of(r.loop.trace, Sends);
            && Of(r.loop.trace, Writes) + r.loop.queue == (if c.repeat then DataParts(c, sends) else [])
            && OneMessagePerBuffer(c, sends)
  {
    InitialInv(c);
    InitialHolding(c);
    RunPreservesInv(c, Boot(c), acts);
  }

  /** From construction, under any interleaving, every buffer is taken from
      the cache once. While the thread runs, every buffer but the one it holds
      (the last one taken) has been released exactly once; once it has left
      its loop, that one has been released too. No buffer is released twice,
      and none that was not taken. */
  lemma BuffersBalanced(c: Config, acts: seq<Action>, i: nat)
    requires c.Valid()
    ensures var r := Run(c, Boot(c), acts);
            var held := r.loop.buffer.id;
            && Count(r.loop.trace, AcquireBuffer(i)) == (if i <= held then 1 else 0)
            && Count(r.loop.trace, ReleaseBuffer(i)) == (if i < held || (i == held && !r.alive) then 1 else 0)
  {
    InitialInv(c);
    InitialHolding(c);
    RunPreservesInv(c, Boot(c), acts);
    SysBalance(c, Run(c, Boot(c), acts), i);
  }

  /** The counts of BuffersBalanced, for any system that keeps the invariant. */
  lemma SysBalance(c: Config, sys: System, i: nat)
    requires SysInv(c, sys)
    ensures var held := sys.loop.buffer.id;
            && Count(sys.loop.trace, AcquireBuffer(i)) == (if i <= held then 1 else 0)
            && Count(sys.loop.trace, ReleaseBuffer(i)) == (if i < held || (i == held && !sys.alive) then 1 else 0)
  {
    var held := sys.loop.buffer.id;
    assert Buffers(sys.loop.trace) == Handover(held) + (if sys.alive then [] else [ReleaseBuffer(held)]);
    HandoverBalance(sys.loop.trace, held, sys.alive, i);
  }

  /** Counting in a trace whose buffer events are the handover up to `held`,
      followed by the release of `held` once the thread is gone. */
  lemma HandoverBalance(t: seq<Effect>, held: nat, alive: bool, i: nat)
    requires Buffers(t) == Handover(held) + (if alive then [] else [ReleaseBuffer(held)])
    ensures Count(t, AcquireBuffer(i)) == (if i <= held then 1 else 0)
    ensures Count(t, ReleaseBuffer(i)) == (if i < held || (i == held && !alive) then 1 else 0)
  {
    CountBuffers(t, AcquireBuffer(i));
    CountBuffers(t, ReleaseBuffer(i));
    HandoverCounts(held, i);
    if !alive {
      CountSnoc(Handover(held), ReleaseBuffer(held), AcquireBuffer(i));
      CountSnoc(Handover(held), ReleaseBuffer(held), ReleaseBuffer(i));
    } else {
      assert Buffers(t) == Handover(held);
    }
  }

  /** Once the thread has left its loop, nothing more happens on its side:
      the trace is final, so in particular no further message is sent. */
  lemma {:induction false} ExitIsFinal(c: Config, sys: System, acts: seq<Action>)
    requires c.Valid() && sys.loop.buffer.Valid() && !sys.alive
    ensures !Run(c, sys, acts).alive
    ensures Run(c, sys, acts).loop.trace == sys.loop.trace
    decreases |acts|
  {
    if acts != [] {
      ExitIsFinal(c, Perform(c, sys, acts[0]), acts[1..]);
    }
  }

  /** Whenever a run makes the thread leave its loop, the trace ends with the
      teardown: device stop, device release, release of the buffer it held. */
  lemma {:induction false} ExitEndsWithTeardown(c: Config, sys: System, acts: seq<Action>)
    requires c.Valid() && sys.loop.buffer.Valid() && sys.alive
    requires !Run(c, sys, acts).alive
    ensures var t := Run(c, sys, acts).loop.trace;
            |t| >= 3 && t[|t| - 3..] == Teardown(Run(c, sys, acts).loop.buffer.id)
    decreases |acts|
  {
    var next := Perform(c, sys, acts[0]);
    if next.alive {
      ExitEndsWithTeardown(c, next, acts[1..]);
    } else {
      ExitIsFinal(c, next, acts[1..]);
      ExitBufferFinal(c, next, acts[1..]);
      assert acts[0].Tick? && Step(c, sys.loop, acts[0].bytesReady).Exit?;
    }
  }

  lemma {:induction false} ExitBufferFinal(c: Config, sys: System, acts: seq<Action>)
    requires c.Valid() && sys.loop.buffer.Valid() && !sys.alive
    ensures Run(c, sys, acts).loop.buffer == sys.loop.buffer
    ensures Run(c, sys, acts).loop.queue == sys.loop.queue
    decreases |acts|
  {
    if acts != [] {
      var next := Perform(c, sys, acts[0]);
      assert next.loop.buffer == sys.loop.buffer && next.loop.queue == sys.loop.queue;
      ExitBufferFinal(c, next, acts[1..]);
    }
  }

  lemma RunCons(c: Config, sys: System, a: Action, rest: seq<Action>)
    requires c.Valid() && sys.loop.buffer.Valid()
    ensures Run(c, sys, [a] + rest) == Run(c, Perform(c, sys, a), rest)
  {
    assert ([a] + rest)[1..] == rest;
  }

  /** shutdown wins at the thread's next iteration, from any state, as long
      as no stopRecording comes before that iteration: the thread leaves its
      loop, and no message is sent after the shutdown, whatever follows. */
  lemma {:induction false} ShutdownWins(c: Config, sys: System, acts: seq<Action>, k: nat)
    requires c.Valid() && sys.loop.buffer.Valid() && sys.loop.state == SHTDN
    requires k < |acts| && acts[k].Tick?
    requires forall i :: 0 <= i < k ==> acts[i] != Call(CallStop)
    ensures !Run(c, sys, acts).alive
    ensures Of(Run(c, sys, acts).loop.trace, Sends) == Of(sys.loop.trace, Sends)
    decreases |acts|
  {
    var next := Perform(c, sys, acts[0]);
    if !sys.alive {
      ExitIsFinal(c, sys, acts);
    } else if acts[0].Tick? {
      var t := Teardown(sys.loop.buffer.id);
      assert !next.alive && next.loop.trace == sys.loop.trace + t;
      TeardownEffects(sys.loop.buffer.id, Sends, DeviceStop);
      OfAppend(sys.loop.trace, t, Sends);
      ExitIsFinal(c, next, acts[1..]);
    } else {
      assert acts[0] != Call(CallStop);
      assert next.loop.state == SHTDN && next.loop.trace == sys.loop.trace;
      assert forall i :: 0 <= i < k - 1 ==> acts[1..][i] == acts[i + 1];
      ShutdownWins(c, next, acts[1..], k - 1);
    }
  }

  /** Ticks change nothing while the state is IDLE: the thread waits. */
  lemma {:induction false} IdleWaits(c: Config, sys: System, acts: seq<Action>)
    requires c.Valid() && sys.loop.buffer.Valid() && sys.loop.state == IDLE
    requires forall i :: 0 <= i < |acts| ==> acts[i].Tick?
    ensures Run(c, sys, acts) == sys
    decreases |acts|
  {
    if acts != [] {
      IdleWaits(c, Perform(c, sys, acts[0]), acts[1..]);
    }
  }

  /** As written, a stopRecording that follows shutdown before the thread has
      seen SHTDN overwrites it: the thread stops the device, returns to IDLE
      and, as long as no further control call arrives, waits there for good,
      without releasing the device, so the join in shutdown would not return. */
  lemma StopAfterShutdownParks(c: Config, sys: System, n: int, later: seq<Action>)
    requires c.Valid() && sys.loop.buffer.Valid() && sys.alive
    requires forall i :: 0 <= i < |later| ==> later[i].Tick?
    ensures var r := Run(c, sys, [Call(CallShutdown), Call(CallStop), Tick(n)]);
            && r.alive && r.loop.state == IDLE
            && Run(c, r, later) == r
  {
    var s1 := Perform(c, sys, Call(CallShutdown));
    var s2 := Perform(c, s1, Call(CallStop));
    var s3 := Perform(c, s2, Tick(n));
    assert s2.loop.state == STOP && s2.alive;
    StopStep(c, s2.loop, n);
    RunCons(c, sys, Call(CallShutdown), [Call(CallStop), Tick(n)]);
    RunCons(c, s1, Call(CallStop), [Tick(n)]);
    RunCons(c, s2, Tick(n), []);
    IdleWaits(c, s3, later);
  }

  /** The loop never turns START into RUN: every iteration that finds START
      issues the device start again. */
  lemma StartReissued(c: Config, sys: System)
    requires c.Valid() && sys.loop.buffer.Valid() && sys.alive && sys.loop.state == IDLE
    ensures var r := Run(c, sys, [Call(CallStart), Tick(c.frameSize), Tick(c.frameSize)]);
            && r.alive && r.loop.state == START
            && Count(r.loop.trace, DeviceStart) == Count(sys.loop.trace, DeviceStart) + 2
  {
    var s1 := Perform(c, sys, Call(CallStart));
    var s2 := Perform(c, s1, Tick(c.frameSize));
    var s3 := Perform(c, s2, Tick(c.frameSize));
    TickInStart(c, s1);
    TickInStart(c, s2);
    RunCons(c, sys, Call(CallStart), [Tick(c.frameSize), Tick(c.frameSize)]);
    RunCons(c, s1, Tick(c.frameSize), [Tick(c.frameSize)]);
    RunCons(c, s2, Tick(c.frameSize), []);
  }

  lemma TickInStart(c: Config, sys: System)
    requires c.Valid() && sys.loop.buffer.Valid() && sys.alive && sys.loop.state == START
    ensures var r := Perform(c, sys, Tick(c.frameSize));
            && r.alive && r.loop.state == START
            && Count(r.loop.trace, DeviceStart) == Count(sys.loop.trace, DeviceStart) + 1
  {
    var s := sys.loop;
    var r := Step(c, s, c.frameSize);
    CaptureStepDevice(c, s, c.frameSize);
    CaptureStep(c, s, c.frameSize);
    assert r.loop.trace == s.trace + NewEffects(s, r);
    CountAppend(s.trace, NewEffects(s, r), DeviceStart);
  }
}

=== FILE: loop_invariant.dfy ===
/**
  What stays true of the capture thread from one iteration of
  AudioRecorder.run() to the next (src/org/jsl/wfwt/AudioRecorder.java,
  lines 97-179): the buffer cursor is sound, every message sent sits at the
  start of a buffer of its own, and every sent frame's data part is either
  already written to the replay player or still queued, in capture order.
*/
module LoopInvariant {
  import opened RecorderState
  import opened FrameLayout
  import opened Effects
  import opened CaptureLoop

  /** The data parts of a sequence of messages, in the same order. */
  function DataParts(c: Config, ms: seq<View>): (ds: seq<View>)
    ensures |ds| == |ms|
    ensures forall i :: 0 <= i < |ms| ==> ds[i] == DataPart(c, ms[i])
  {
    seq(|ms|, i requires 0 <= i < |ms| => DataPart(c, ms[i]))
  }

  /** As written, the loop never packs a second message into a buffer: each
      message sent occupies the first messageSize bytes of a buffer acquired
      after the one of the message before it. Within bounds and pairwise
      disjoint follow. */
  ghost predicate OneMessagePerBuffer(c: Config, ms: seq<View>)
  {
    && (forall i :: 0 <= i < |ms| ==> ms[i].start == 0 && ms[i].end == c.MessageSize())
    && (forall i, j :: 0 <= i < j < |ms| ==> ms[i].buffer < ms[j].buffer)
  }

  /** The part of the invariant that survives leaving the loop. */
  ghost predicate TraceInv(c: Config, s: Loop)
  {
    var sends := Of(s.trace, Sends);
    && Of(s.trace, Writes) + s.queue == (if c.repeat then DataParts(c, sends) else [])
    && OneMessagePerBuffer(c, sends)
    && (forall i :: 0 <= i < |sends| ==> sends[i].buffer <= s.buffer.id)
  }

  /** The invariant of the running loop: on top of TraceInv, the current buffer
      came from the cache, and it is either untouched (no message was carved
      from it yet) or used up. */
  ghost predicate Inv(c: Config, s: Loop)
  {
    var sends := Of(s.trace, Sends);
    && TraceInv(c, s)
    && s.buffer.Valid() && s.buffer.capacity == c.CacheBufferSize()
    && (s.buffer.Untouched() || s.buffer.Remaining() == 0)
    && (s.buffer.Untouched() ==> forall i :: 0 <= i < |sends| ==> sends[i].buffer < s.buffer.id)
  }

  lemma InitialInv(c: Config)
    requires c.Valid()
    ensures Inv(c, Initial(c))
  {
  }

  /** Every message sent is messageSize long and lies inside its buffer. */
  lemma MessageInBounds(c: Config, s: Loop, i: int)
    requires c.Valid() && TraceInv(c, s)
    requires 0 <= i < |Of(s.trace, Sends)|
    ensures var m := Of(s.trace, Sends)[i];
            && m.end <= c.CacheBufferSize()
            && m.Length() == c.MessageSize()
  {
  }

  /** Two messages sent never overlap. */
  lemma MessagesDisjoint(c: Config, s: Loop, i: int, j: int)
    requires c.Valid() && TraceInv(c, s)
    requires 0 <= i < j < |Of(s.trace, Sends)|
    ensures var ms := Of(s.trace, Sends);
            ms[i].buffer != ms[j].buffer || ms[i].end <= ms[j].start || ms[j].end <= ms[i].start
  {
  }

  /** One iteration keeps the invariant; leaving the loop keeps its trace part. */
  lemma StepPreservesInv(c: Config, s: Loop, bytesReady: int)
    requires c.Valid() && Inv(c, s)
    ensures var r := Step(c, s, bytesReady);
            && (r.Continue? ==> Inv(c, r.loop))
            && (r.Exit? ==> TraceInv(c, r.loop) && r.loop.buffer.Valid())
  {
    var r := Step(c, s, bytesReady);
    if s.state == STOP {
      StopPreservesInv(c, s, bytesReady);
    } else if r.Exit? {
      ExitPreservesTraceInv(c, s, bytesReady);
    } else if r.Continue? {
      CapturePreservesInv(c, s, bytesReady);
    }
  }

  lemma Extends(s: Loop, r: Outcome)
    requires !r.Parked? && s.trace <= r.loop.trace
    ensures forall k: Kind :: Of(r.loop.trace, k) == Of(s.trace, k) + Of(NewEffects(s, r), k)
  {
    var d := NewEffects(s, r);
    assert r.loop.trace == s.trace + d;
    forall k: Kind
      ensures Of(r.loop.trace, k) == Of(s.trace, k) + Of(d, k)
    {
      OfAppend(s.trace, d, k);
    }
  }

  lemma StopPreservesInv(c: Config, s: Loop, bytesReady: int)
    requires c.Valid() && Inv(c, s) && s.state == STOP
    ensures Step(c, s, bytesReady).Continue? && Inv(c, Step(c, s, bytesReady).loop)
  {
    var r := Step(c, s, bytesReady);
    StopStep(c, s, bytesReady);
    Extends(s, r);
    var d := NewEffects(s, r);
    StopAccounting(c.repeat, Of(s.trace, Writes), s.queue, Of(d, Writes), r.loop.queue);
    SameSendsKeepInv(c, s, r.loop);
  }

  /** A STOP moves the queue to the player's writes, or leaves both alone. */
  lemma StopAccounting(repeat: bool, writes: seq<View>, queue: seq<View>, written: seq<View>, queue': seq<View>)
    requires repeat ==> written == queue && queue' == []
    requires !repeat ==> written == [] && queue' == queue
    ensures (writes + written) + queue' == writes + queue
  {
    if repeat {
      assert (writes + written) + queue' == writes + queue;
    } else {
      assert writes + written == writes;
    }
  }

  /** A step that keeps the buffer, sends nothing and only moves frames from
      the queue to the player keeps the invariant. */
  lemma SameSendsKeepInv(c: Config, s: Loop, l: Loop)
    requires Inv(c, s)
    requires l.buffer == s.buffer
    requires Of(l.trace, Sends) == Of(s.trace, Sends)
    requires Of(l.trace, Writes) + l.queue == Of(s.trace, Writes) + s.queue
    ensures Inv(c, l)
  {
  }

  /** A step that keeps the queue, sends nothing, writes nothing and does not
      go back to an older buffer keeps the trace part of the invariant. */
  lemma SameSendsKeepTraceInv(c: Config, s: Loop, l: Loop)
    requires TraceInv(c, s)
    requires l.buffer.id >= s.buffer.id && l.queue == s.queue
    requires Of(l.trace, Sends) == Of(s.trace, Sends)
    requires Of(l.trace, Writes) == Of(s.trace, Writes)
    ensures TraceInv(c, l)
  {
  }

  lemma ExitPreservesTraceInv(c: Config, s: Loop, bytesReady: int)
    requires c.Valid() && Inv(c, s)
    requires s.state == SHTDN || (s.state in {START, RUN} && bytesReady != c.frameSize)
    ensures Step(c, s, bytesReady).Exit?
    ensures TraceInv(c, Step(c, s, bytesReady).loop) && Step(c, s, bytesReady).loop.buffer.Valid()
  {
    var r := Step(c, s, bytesReady);
    ExitStep(c, s, bytesReady);
    ExitBuffer(c, s, bytesReady);
    Extends(s, r);
    SameSendsKeepTraceInv(c, s, r.loop);
  }

  /** Leaving the loop holds on to the current buffer or a newer one. */
  lemma ExitBuffer(c: Config, s: Loop, bytesReady: int)
    requires c.Valid() && s.buffer.Valid()
    requires s.state == SHTDN || (s.state in {START, RUN} && bytesReady != c.frameSize)
    ensures Step(c, s, bytesReady).Exit?
    ensures Step(c, s, bytesReady).loop.buffer.id >= s.buffer.id
  {
  }

  lemma CapturePreservesInv(c: Config, s: Loop, bytesReady: int)
    requires c.Valid() && Inv(c, s)
    requires s.state in {START, RUN} && bytesReady == c.frameSize
    ensures Step(c, s, bytesReady).Continue? && Inv(c, Step(c, s, bytesReady).loop)
  {
    var l := Step(c, s, bytesReady).loop;
    CaptureFacts(c, s, bytesReady);
    NewerBuffer(c, s, l.buffer.id);
    CaptureKeepsInv(c, s, l, View(l.buffer.id, 0, c.MessageSize()));
  }

  /** A full-read iteration from a buffer the invariant allows: the message
      sent is the first messageSize bytes of the buffer now held, which is the
      same buffer if it was untouched and the next one otherwise, and is used
      up; nothing is written to the player. */
  lemma CaptureFacts(c: Config, s: Loop, bytesReady: int)
    requires c.Valid() && s.buffer.Valid() && s.buffer.capacity == c.CacheBufferSize()
    requires s.buffer.Untouched() || s.buffer.Remaining() == 0
    requires s.state in {START, RUN} && bytesReady == c.frameSize
    ensures Step(c, s, bytesReady).Continue?
    ensures var l := Step(c, s, bytesReady).loop;
            var m := View(l.buffer.id, 0, c.MessageSize());
            && (l.buffer.id == s.buffer.id + 1 || (l.buffer.id == s.buffer.id && s.buffer.Untouched()))
            && l.buffer.Valid() && l.buffer.Remaining() == 0 && l.buffer.capacity == c.CacheBufferSize()
            && Of(l.trace, Sends) == Of(s.trace, Sends) + [m]
            && Of(l.trace, Writes) == Of(s.trace, Writes)
            && l.queue == (if c.repeat then s.queue + [DataPart(c, m)] else s.queue)
  {
    var l := Step(c, s, bytesReady).loop;
    var b := EnsureRoom(s.buffer, c);
    CaptureStep(c, s, bytesReady);
    RoomAtStart(s.buffer, c);
    assert b.position == 0 && l.buffer.id == b.id;
    CaptureTrace(c, s, bytesReady);
    assert View(b.id, b.position, b.position + c.MessageSize()) == View(l.buffer.id, 0, c.MessageSize());
  }

  lemma CaptureTrace(c: Config, s: Loop, bytesReady: int)
    requires c.Valid() && s.buffer.Valid()
    requires s.state in {START, RUN} && bytesReady == c.frameSize
    ensures Step(c, s, bytesReady).Continue?
    ensures var l := Step(c, s, bytesReady).loop;
            var b := EnsureRoom(s.buffer, c);
            && Of(l.trace, Sends) == Of(s.trace, Sends) + [View(b.id, b.position, b.position + c.MessageSize())]
            && Of(l.trace, Writes) == Of(s.trace, Writes)
  {
    CaptureStepEffects(c, s, bytesReady);
    Extends(s, Step(c, s, bytesReady));
  }

  lemma NewerBuffer(c: Config, s: Loop, id: nat)
    requires Inv(c, s)
    requires id == s.buffer.id + 1 || (id == s.buffer.id && s.buffer.Untouched())
    ensures forall i :: 0 <= i < |Of(s.trace, Sends)| ==> Of(s.trace, Sends)[i].buffer < id
  {
  }

  lemma CaptureKeepsInv(c: Config, s: Loop, l: Loop, m: View)
    requires c.Valid() && TraceInv(c, s)
    requires m.start == 0 && m.end == c.MessageSize() && m.buffer == l.buffer.id
    requires l.buffer.Valid() && l.buffer.Remaining() == 0 && l.buffer.capacity == c.CacheBufferSize()
    requires forall i :: 0 <= i < |Of(s.trace, Sends)| ==> Of(s.trace, Sends)[i].buffer < m.buffer
    requires Of(l.trace, Sends) == Of(s.trace, Sends) + [m]
    requires Of(l.trace, Writes) == Of(s.trace, Writes)
    requires l.queue == (if c.repeat then s.queue + [DataPart(c, m)] else s.queue)
    ensures Inv(c, l)
  {
    var sends := Of(s.trace, Sends);
    NextMessage(c, sends, m);
    Conservation(c, Of(s.trace, Writes), s.queue, sends, m);
    assert TraceInv(c, l);
    assert !l.buffer.Untouched();
  }

  /** A captured frame keeps the replay accounting: what was written plus what
      is queued is still the data parts of everything sent. */
  lemma Conservation(c: Config, writes: seq<View>, queue: seq<View>, sends: seq<View>, m: View)
    requires writes + queue == (if c.repeat then DataParts(c, sends) else [])
    ensures writes + (if c.repeat then queue + [DataPart(c, m)] else queue)
            == (if c.repeat then DataParts(c, sends + [m]) else [])
  {
    if c.repeat {
      assert DataParts(c, sends + [m]) == DataParts(c, sends) + [DataPart(c, m)];
      assert writes + (queue + [DataPart(c, m)]) == (writes + queue) + [DataPart(c, m)];
    }
  }

  /** Appending a message carved at the start of a newer buffer keeps one
      message per buffer and extends the data parts by its own. */
  lemma NextMessage(c: Config, sends: seq<View>, m: View)
    requires OneMessagePerBuffer(c, sends)
    requires m.start == 0 && m.end == c.MessageSize()
    requires forall i :: 0 <= i < |sends| ==> sends[i].buffer < m.buffer
    ensures OneMessagePerBuffer(c, sends + [m])
    ensures forall i :: 0 <= i < |sends + [m]| ==> (sends + [m])[i].buffer <= m.buffer
  {
  }
}

=== FILE: recorder_state.dfy ===
/**
  The control state of AudioRecorder (src/org/jsl/wfwt/AudioRecorder.java).

  The Java code keeps the state in one int field guarded by a lock; every control
  call takes the lock and makes one assignment, so each call is modelled here as a
  total function on states. The condition-variable signal a call issues is kept
  alongside the new state, because the capture thread only waits while IDLE and
  must be woken whenever the state leaves IDLE.
*/
module RecorderState {

  /** The states the code assigns. The constant ESTPD (value 5) is declared but
      never assigned, so it has no constructor here. */
  datatype State = IDLE | START | RUN | STOP | SHTDN

  /** The result of one control call: the state it leaves behind and whether it
      signalled the condition the capture thread waits on. */
  datatype Transition = Transition(next: State, wake: bool)

  /** startRecording: IDLE becomes START (and the thread is woken); a pending
      STOP is cancelled into RUN; START, RUN and SHTDN are left as they are. */
  function StartRecording(s: State): (t: Transition)
    ensures s == IDLE ==> t == Transition(START, true)
    ensures s == STOP ==> t == Transition(RUN, false)
    ensures s in {START, RUN, SHTDN} ==> t == Transition(s, false)
  {
    if s == IDLE then Transition(START, true)
    else if s == STOP then Transition(RUN, false)
    else Transition(s, false)
  }

  /** stopRecording: every state except IDLE becomes STOP, SHTDN included;
      IDLE is left as it is. It never signals. */
  function StopRecording(s: State): (t: Transition)
    ensures !t.wake
    ensures t.next == IDLE <==> s == IDLE
    ensures s != IDLE ==> t.next == STOP
  {
    if s != IDLE then Transition(STOP, false) else Transition(s, false)
  }

  /** shutdown (its locked part): the state becomes SHTDN from anywhere, and the
      thread is signalled exactly when it was parked in IDLE. */
  function Shutdown(s: State): (t: Transition)
    ensures t.next == SHTDN
    ensures t.wake <==> s == IDLE
  {
    if s == IDLE then Transition(SHTDN, true) else Transition(SHTDN, false)
  }

  /** The three control calls, as one type for reasoning about any of them. */
  datatype Control = CallStart | CallStop | CallShutdown

  function Apply(op: Control, s: State): Transition
  {
    match op
    case CallStart => StartRecording(s)
    case CallStop => StopRecording(s)
    case CallShutdown => Shutdown(s)
  }

  /** No lost wake-up: whichever control call moves the state away from IDLE
      also signals the condition, so the parked capture thread always sees it. */
  lemma NoLostWakeup(op: Control, s: State)
    ensures s == IDLE && Apply(op, s).next != IDLE ==> Apply(op, s).wake
    ensures Apply(op, s).wake ==> s == IDLE
  {
  }

  /** shutdown is idempotent on the state, and a second call never signals. */
  lemma ShutdownIdempotent(s: State)
    ensures Shutdown(Shutdown(s).next) == Transition(SHTDN, false)
  {
  }

  /** startRecording never undoes a shutdown; stopRecording does: it overwrites
      SHTDN with STOP. */
  lemma ShutdownVersusLaterCalls()
    ensures StartRecording(SHTDN).next == SHTDN
    ensures StopRecording(SHTDN).next == STOP
  {
  }

  /** A stop immediately followed by a start, while recording, coalesces into
      RUN without passing through IDLE. */
  lemma StopThenStartCoalesces(s: State)
    requires s in {START, RUN, STOP}
    ensures StartRecording(StopRecording(s).next).next == RUN
  {
  }

  /** Applies a sequence of control calls, in order, to a state. */
  function ApplyAll(ops: seq<Control>, s: State): (r: State)
    decreases |ops|
  {
    if ops == [] then s else ApplyAll(ops[1..], Apply(ops[0], s).next)
  }

  /** Once shut down, the state stays SHTDN under any sequence of control calls
      that contains no stopRecording. */
  lemma {:induction false} ShutdownPersistsWithoutStop(ops: seq<Control>, s: State)
    requires s == SHTDN
    requires forall i :: 0 <= i < |ops| ==> ops[i] != CallStop
    ensures ApplyAll(ops, s) == SHTDN
    decreases |ops|
  {
    if ops != [] {
      assert Apply(ops[0], s).next == SHTDN;
      ShutdownPersistsWithoutStop(ops[1..], SHTDN);
    }
  }

  /** Control calls alone never reach IDLE from a non-IDLE state: only the
      capture thread, draining a STOP, returns the recorder to IDLE. */
  lemma {:induction false} ControlNeverReturnsToIdle(ops: seq<Control>, s: State)
    requires s != IDLE
    ensures ApplyAll(ops, s) != IDLE
    decreases |ops|
  {
    if ops != [] {
      ControlNeverReturnsToIdle(ops[1..], Apply(ops[0], s).next);
    }
  }
}

=== FILE: wrappers.dfy ===
/** The optional value used wherever the recorder's Java code returns null. */
module Wrappers {

  datatype Option<+T> = None | Some(value: T)

}
